=== FILE: README.md ===
# VRPN input adapters for Unreal Engine, modelled in Dafny

The VRPNInput plugin connects Unreal Engine to VRPN devices. Every section of its
configuration file describes one device. A `Type=` of `Button`, `Tracker` or
`Analog` selects an adapter, and `Address=` names the VRPN remote it opens. Each
adapter registers a change callback with its remote, buffers what the callback
reports, and turns that buffer into host input events when the engine calls its
`Update`:

- **Button adapter.** Reports are pushed on a stack. `Update` pops them newest
  first and gives up at the first button without a binding.
- **Tracker adapter.** Each sensor keeps its latest sample and a dirty flag.
  `Update` emits six axis values per dirty sensor. It also answers
  motion-controller pose queries by player index and hand.
- **Analog adapter.** A report overwrites the channel count and the first that
  many channel values. `Update` emits channels upwards from 0 and stops at the
  first unbound one.

The plugin's registry creates an adapter per section, keeps it only when its
`ParseConfig` succeeds, and runs every kept adapter's `Update` once per frame,
in configuration order.

The model is functional. Each adapter is an immutable record. A VRPN callback is
a function from an adapter and a report to a new adapter. `Update` is a function
from an adapter to a new adapter and the host events it emits, in order.
Configuration sections arrive already read into fields.

The modules are:

- `Values`: shared values, host events and key descriptions.
- `Config`: sections, entries and the binding tables of buttons and channels.
- `Transform`: the tracker calibration and its coordinate transform.
- `ButtonDevice`, `TrackerDevice` and `AnalogDevice`: one module per adapter.
- `DeviceManager`: the registry, the startup loop and the per-frame poll.

Behaviour that the model follows deliberately:

- **Button order.** The button drain order is last in, first out, as the source
  has it.
- **Fail-fast drains.** A button or analog drain stops at the first unbound id,
  as the source has it.
- **Unused smoothing.** The tracker callback computes a spherically interpolated
  orientation but overwrites it with the raw quaternion straight away. The model
  stores the raw quaternion.
- **Tracker success rule.** A tracker section fails only when it has no
  `Tracker=` entry; it succeeds even when every entry is malformed.
- **Enabled-devices list.** The list is matched with the engine's string
  equality, which ignores case; the model folds ASCII letters. The `Type=`
  match, by contrast, is exact.

## Model

| member | source | states |
|---|---|---|
| `Config.AddBindings` | VRPNInput/Source/VRPNInput/Private/VRPNInputDevice.cpp:87-102 | the binding table ends up holding exactly the ids it held before plus the ids of the entries that carry Id, Name and Description |
| `Config.AddBindingsLatestWins` | VRPNInput/Source/VRPNInput/Private/VRPNInputDevice.cpp:433-448 | each id maps to the name of the last usable entry with that id; ids no usable entry mentions keep their old binding |
| `Config.AddBindingsAnnounces` | VRPNInput/Source/VRPNInput/Private/VRPNInputDevice.cpp:99-101 | one key is announced per usable entry, in entry order, named by the entry's name and described by its description |
| `Config.ParseBindings` | VRPNInput/Source/VRPNInput/Private/VRPNInputDevice.cpp:78-105 | no entries: failure with nothing changed; otherwise success iff the table is non-empty afterwards, i.e. it was non-empty before or some entry is usable |
| `Transform.FlipPosition` | VRPNInput/Source/VRPNInput/Private/VRPNInputDevice.cpp:297-301 | the Z flip negates Z and keeps X and Y |
| `Transform.FlipRotation` | VRPNInput/Source/VRPNInput/Private/VRPNInputDevice.cpp:321-325 | the Z flip of an orientation negates X and Y and keeps Z and W |
| `Transform.WorldScale` | VRPNInput/Source/VRPNInput/Private/VRPNInputDevice.cpp:315-318 | the world scale is 1 exactly when there is no world with settings or its WorldToMeters is 100 |
| `Transform.TransformCoordinates` | VRPNInput/Source/VRPNInput/Private/VRPNInputDevice.cpp:293-327 | without a rotation offset the orientation is the sample's, Z-flipped when asked; without a rotation offset or flip the position is the sample plus the offset, scaled by the product of the unit factor and the world scale |
| `Transform.FlipIsInvolution` | VRPNInput/Source/VRPNInput/Private/VRPNInputDevice.cpp:293-327 | flipping a position or an orientation twice restores it |
| `Transform.FlipReflectsSampleAndOffset` | VRPNInput/Source/VRPNInput/Private/VRPNInputDevice.cpp:293-327 | a flipping calibration equals the non-flipping one applied to the flipped sample and the flipped translation offset |
| `Transform.DefaultCalibrationIsIdentity` | VRPNInput/Source/VRPNInput/Private/VRPNInputDevice.cpp:114-121 | the constructor's calibration (no offset, identity rotation, factor 1, no flip) hands a sample through unchanged whenever the world scale is 1: with no world, or with the engine's default of 100 world units per metre |
| `Transform.OffsetThenScale` | VRPNInput/Source/VRPNInput/Private/VRPNInputDevice.cpp:319 | the offset is added before the unit factor is applied: with a world scale of 1, offset (1,0,0) and factor 2 map the origin to (2,0,0) |
| `ButtonDevice.New` | VRPNInput/Source/VRPNInput/Private/VRPNInputDevice.cpp:30-40 | a new button adapter has a remote iff enabled, an empty stack and no bindings, and its first Update does nothing |
| `ButtonDevice.HandleButton` | VRPNInput/Source/VRPNInput/Private/VRPNInputDevice.cpp:107-110 | the callback appends the report to the stack, bound or not, and changes nothing else |
| `ButtonDevice.KeyEvent` | VRPNInput/Source/VRPNInput/Private/VRPNInputDevice.cpp:64-73 | state 1 gives a key-down of the bound key, and every other state gives a key-up |
| `ButtonDevice.Update` | VRPNInput/Source/VRPNInput/Private/VRPNInputDevice.cpp:46-76 | without a remote nothing happens; otherwise what stays is a prefix of the stack, and either every report was bound and the stack is empty, or the report just above what stays is unbound and all newer ones are bound |
| `ButtonDevice.ParseConfig` | VRPNInput/Source/VRPNInput/Private/VRPNInputDevice.cpp:78-105 | fails with no `Button=` entries and changes nothing; otherwise succeeds iff the table ends non-empty, and the table's ids grow by the usable entries' ids; whenever there are entries, the table and announcements are exactly those of adding the section's entries to the old table |
| `ButtonDevice.UpdateEmitsRemovedPart` | VRPNInput/Source/VRPNInput/Private/VRPNInputDevice.cpp:52-74 | one Update emits the events of exactly the reports it removed, newest first; the unbound report it stops at emits nothing |
| `ButtonDevice.DrainAllEmitsSurviving` | VRPNInput/Source/VRPNInput/Private/VRPNInputDevice.cpp:52-61 | repeated Updates emit every bound report exactly once, newest first, drop every unbound one, and leave the stack empty |
| `ButtonDevice.NewestFirst` | VRPNInput/Source/VRPNInput/Private/VRPNInputDevice.cpp:54 | the report pushed last is handled first; if it is unbound, the Update emits nothing and older reports stay buffered |
| `ButtonDevice.PressThenRelease` | VRPNInput/Source/VRPNInput/Private/VRPNInputDevice.cpp:46-110 | a press and a release of one bound button before one Update emit key-up then key-down and leave nothing buffered |
| `TrackerDevice.New` | VRPNInput/Source/VRPNInput/Private/VRPNInputDevice.cpp:114-127 | a new tracker adapter has a remote iff enabled, no sensors, the identity calibration and no motion-controller registration; it emits nothing and answers no pose query |
| `TrackerDevice.HandleTracker` | VRPNInput/Source/VRPNInput/Private/VRPNInputDevice.cpp:360-383 | an unknown sensor changes nothing; a known one gets the raw position and raw quaternion and is marked dirty; every other sensor is untouched |
| `TrackerDevice.CallbackOverwrites` | VRPNInput/Source/VRPNInput/Private/VRPNInputDevice.cpp:369-382 | a second sample for a sensor replaces the first entirely |
| `TrackerDevice.CallbacksCollapse` | VRPNInput/Source/VRPNInput/Private/VRPNInputDevice.cpp:360-383 | any number of samples between two Updates leave the adapter as the last sample alone would |
| `TrackerDevice.SixOutputs` | VRPNInput/Source/VRPNInput/Private/VRPNInputDevice.cpp:146-164 | a dirty sensor reports six float-axis values |
| `TrackerDevice.EmitSensors` | VRPNInput/Source/VRPNInput/Private/VRPNInputDevice.cpp:139-168 | every sensor comes out clean and otherwise unchanged, and six values are emitted per dirty sensor |
| `TrackerDevice.EmitSensorsPlaces` | VRPNInput/Source/VRPNInput/Private/VRPNInputDevice.cpp:139-168 | the six values of dirty sensor i follow those of the dirty sensors before it, computed from its sample through the calibration |
| `TrackerDevice.Update` | VRPNInput/Source/VRPNInput/Private/VRPNInputDevice.cpp:133-170 | without a remote nothing happens; otherwise every sensor becomes clean with its sample kept, and six values are emitted per dirty sensor |
| `TrackerDevice.UpdateEmitsDirty` | VRPNInput/Source/VRPNInput/Private/VRPNInputDevice.cpp:142-166 | each dirty sensor's six values appear in sensor order, transformed by the adapter's calibration |
| `TrackerDevice.UpdateTwiceIsSilent` | VRPNInput/Source/VRPNInput/Private/VRPNInputDevice.cpp:166 | a second Update without new samples emits nothing |
| `TrackerDevice.OneSampleOneEmission` | VRPNInput/Source/VRPNInput/Private/VRPNInputDevice.cpp:139-167 | on an otherwise clean adapter, one sample makes the next Update emit exactly that sensor's six values for that sample |
| `TrackerDevice.ManySamplesOneEmission` | VRPNInput/Source/VRPNInput/Private/VRPNInputDevice.cpp:360-383 | any number of samples for one sensor between two Updates give one set of six values, from the last sample |
| `TrackerDevice.GetControllerOrientationAndPosition` | VRPNInput/Source/VRPNInput/Private/VRPNInputDevice.cpp:329-353 | a pose is found iff some sensor has the queried player index and hand; it is the transformed pose of the first such sensor |
| `TrackerDevice.GetControllerTrackingStatus` | VRPNInput/Source/VRPNInput/Private/VRPNInputDevice.cpp:355-358 | every controller is reported as tracked |
| `TrackerDevice.ParseCalibration` | VRPNInput/Source/VRPNInput/Private/VRPNInputDevice.cpp:172-222 | a readable rotation offset, position offset, unit factor or flip is taken over into the calibration as given |
| `TrackerDevice.UnsetCalibrationIsIdentity` | VRPNInput/Source/VRPNInput/Private/VRPNInputDevice.cpp:172-222 | a section without calibration keys gives the identity transform whenever the world scale is 1 (no world, or the default one) |
| `TrackerDevice.MalformedOffsetsFallBack` | VRPNInput/Source/VRPNInput/Private/VRPNInputDevice.cpp:173-222 | each key falls back on its own: a missing or unreadable rotation offset gives no rotation, a missing or unreadable position offset gives (0,0,0), a missing unit factor gives 1 and a missing flip gives no flip, whatever the other keys hold |
| `TrackerDevice.OffsetAndUnitsScenario` | VRPNInput/Source/VRPNInput/Private/VRPNInputDevice.cpp:197-212 | a section with position offset (1,0,0) and unit factor 2 maps a sample at the origin to (2,0,0) when the world scale is 1 |
| `TrackerDevice.NewInput` | VRPNInput/Source/VRPNInput/Private/VRPNInputDevice.cpp:247-270 | a new sensor is clean, at the origin with the identity rotation; its player index is `PlayerId=` or -1; its hand is Right iff the index is at least 0 and `Hand=Right` |
| `TrackerDevice.Announce` | VRPNInput/Source/VRPNInput/Private/VRPNInputDevice.cpp:272-280 | each usable entry announces six float axes, on the keys NameMotionX, NameMotionY, NameMotionZ, NameRotationYaw, NameRotationPitch and NameRotationRoll in that order, with the display names "Name X position", "Name Y position", "Name Z position", "Name Yaw", "Name Pitch" and "Name Roll" |
| `TrackerDevice.Upsert` | VRPNInput/Source/VRPNInput/Private/VRPNInputDevice.cpp:268-270 | adding a sensor with a new id appends it; with a known id it replaces that sensor in place, so every id keeps its position; the id looks up to the new state, every other id is left alone, and ids stay unique |
| `TrackerDevice.AddSensors` | VRPNInput/Source/VRPNInput/Private/VRPNInputDevice.cpp:234-281 | ids stay unique and six keys are announced per usable entry |
| `TrackerDevice.AddSensorsLatestWins` | VRPNInput/Source/VRPNInput/Private/VRPNInputDevice.cpp:239-270 | each id's sensor is the one its last usable entry created; malformed entries are skipped; other ids keep their state |
| `TrackerDevice.AddSensorsAnnounces` | VRPNInput/Source/VRPNInput/Private/VRPNInputDevice.cpp:239-280 | the announcements are the six keys of every usable entry, one entry after another in entry order; malformed entries announce nothing |
| `TrackerDevice.EmittedKeysAreAnnounced` | VRPNInput/Source/VRPNInput/Private/VRPNInputDevice.cpp:146-164 | the six keys a sensor's Update values go to are the six keys its entry announced, in the same order |
| `TrackerDevice.ParseConfig` | VRPNInput/Source/VRPNInput/Private/VRPNInputDevice.cpp:172-291 | the calibration is always read; success iff there is any `Tracker=` entry; six keys per usable entry; registered as a motion controller iff some usable entry has a player index of at least 0; with entries, the sensors and announcements are exactly those of adding the entries to the old sensors |
| `TrackerDevice.NonControllerAnswersMinusOneLeft` | VRPNInput/Source/VRPNInput/Private/VRPNInputDevice.cpp:248-250 | a sensor configured without `PlayerId=` answers the query for player -1 and the left hand |
| `AnalogDevice.New` | VRPNInput/Source/VRPNInput/Private/VRPNInputDevice.cpp:387-396 | the corrected constructor: a remote iff enabled, no bindings, a channel count of 0, so the first Update emits nothing |
| `AnalogDevice.HandleAnalog` | VRPNInput/Source/VRPNInput/Private/VRPNInputDevice.cpp:453-461 | the report's count is stored, channels below it take the report's values, and channels at or above it keep their old values |
| `AnalogDevice.EmitChannels` | VRPNInput/Source/VRPNInput/Private/VRPNInputDevice.cpp:409-419 | channels are emitted upwards with their bound keys and current values, stopping at the count or before the first unbound channel |
| `AnalogDevice.Update` | VRPNInput/Source/VRPNInput/Private/VRPNInputDevice.cpp:402-421 | state never changes; the emitted prefix is channels 0, 1, ... with their values, and a short emission ends at an unbound channel |
| `AnalogDevice.ParseConfig` | VRPNInput/Source/VRPNInput/Private/VRPNInputDevice.cpp:423-451 | fails with no `Channel=` entries and changes nothing; otherwise succeeds iff the table ends non-empty, and the table's ids grow by the usable entries' ids; whenever there are entries, the table and announcements are exactly those of adding the section's entries to the old table |
| `AnalogDevice.ReportThenUpdate` | VRPNInput/Source/VRPNInput/Private/VRPNInputDevice.cpp:453-461 | after a report whose channels are all bound, Update emits exactly the report's values in channel order |
| `AnalogDevice.StaleTailIsNeverEmitted` | VRPNInput/Source/VRPNInput/Private/VRPNInputDevice.cpp:456-460 | after a report, only values the report carried are emitted, never leftovers beyond its count |
| `AnalogDevice.UpdateRepeats` | VRPNInput/Source/VRPNInput/Private/VRPNInputDevice.cpp:409-419 | without new reports, each Update emits the same events again |
| `AnalogDevice.FreshAdapterIsSilent` | VRPNInput/Source/VRPNInput/Private/VRPNInputDevice.cpp:387-396 | an adapter that has had no report emits nothing, whatever its configuration |
| `AnalogDevice.NewAsWritten` | VRPNInput/Source/VRPNInput/Private/VRPNInputDevice.cpp:387-396 | the constructor leaves the count and values as the allocation held them |
| `AnalogDevice.UninitialisedCountEmitsUnreported` | VRPNInput/Source/VRPNInput/Private/VRPNInputDevice.h:158-159 | with the count left uninitialised, an Update before any report can emit a value no report carried |
| `DeviceManager.Deliver` | VRPNInput/Source/VRPNInput/Private/VRPNInputDevice.cpp:35-39 | a report reaches only an enabled adapter; an enabled adapter runs its own kind's callback on a report of that kind (button push, tracker sample, analog frame), and a report of another kind changes nothing |
| `DeviceManager.DeliverAll` | VRPNInput/Source/VRPNInput/Private/VRPNInputDevice.cpp:49-51 | a pump of any number of reports keeps the adapter's kind and connection |
| `DeviceManager.PumpBuffersButtonReports` | VRPNInput/Source/VRPNInput/Private/VRPNInputDevice.cpp:49-51 | a pump of an enabled button adapter pushes every pending button report onto the stack, in arrival order, and changes nothing else |
| `DeviceManager.DisconnectedIgnoresReports` | VRPNInput/Source/VRPNInput/Private/VRPNInputDevice.cpp:122-126 | a disabled adapter is unchanged by any sequence of reports |
| `DeviceManager.DisabledDeviceIsSilent` | VRPNInput/Source/VRPNInput/Private/VRPNInputDevice.cpp:402-404 | polling a disabled adapter emits nothing and changes nothing |
| `DeviceManager.Poll` | VRPNInput/Source/VRPNInput/Private/VRPNInputDevice.cpp:46-52 | pumping the remote and then running Update keeps the adapter's kind and connection |
| `DeviceManager.Update` | VRPNInput/Source/VRPNInput/Private/VRPNInputDevice.h:46 | Update keeps the adapter's kind and connection, and a disconnected adapter emits nothing |
| `DeviceManager.CreateAdapter` | VRPNInput/Source/VRPNInput/Private/VRPNInputDeviceManager.cpp:99-118 | an adapter is created iff `Type=` is exactly Tracker, Button or Analog; it is of that kind, and connected iff enabled |
| `DeviceManager.IsEnabled` | VRPNInput/Source/VRPNInput/Private/VRPNInputDeviceManager.cpp:100 | a device is enabled iff the enabled-devices list is empty or holds its section name, compared ignoring case; a device missing from a non-empty list is disabled |
| `DeviceManager.EnabledMatchIgnoresCase` | VRPNInput/Source/VRPNInput/Private/VRPNInputDeviceManager.cpp:100 | section names that differ only in letter case are enabled alike, as the engine's string equality compares them |
| `DeviceManager.ParseConfig` | VRPNInput/Source/VRPNInput/Private/VRPNInputDevice.h:47 | parsing keeps the adapter's kind and connection |
| `DeviceManager.ConfigureSection` | VRPNInput/Source/VRPNInput/Private/VRPNInputDeviceManager.cpp:83-123 | a section without `Type=` or `Address=` is skipped; an adapter is kept iff the type is known and its per-type rule accepts the section; a kept adapter has the section's kind and is connected iff enabled; a rejected section announced no key |
| `DeviceManager.AcceptedIsConfigured` | VRPNInput/Source/VRPNInput/Private/VRPNInputDeviceManager.cpp:101-123 | the adapter kept for a section is the one its ParseConfig filled: a button or analog adapter holds exactly the section's bindings and announced their keys; a tracker adapter holds the section's sensors and calibration and announced their keys |
| `DeviceManager.FailedParseRegistersNothing` | VRPNInput/Source/VRPNInput/Private/VRPNInputDeviceManager.cpp:119-123 | on a fresh adapter ParseConfig succeeds exactly by its type's rule, and a failed parse announced no key |
| `DeviceManager.EnsureManager` | VRPNInput/Source/VRPNInput/Private/VRPNInputDeviceManager.cpp:124-128 | a registry exists afterwards; an existing one is kept and a new one starts empty |
| `DeviceManager.AddInputDevice` | VRPNInput/Source/VRPNInput/Private/VRPNInputDeviceManager.h:59 | adding appends the adapter after the registry's current devices |
| `DeviceManager.Record` | VRPNInput/Source/VRPNInput/Private/VRPNInputDeviceManager.cpp:119-129 | only an accepted section adds a device and, if needed, creates the registry; the keys a section announced are kept either way |
| `DeviceManager.StartupModule` | VRPNInput/Source/VRPNInput/Private/VRPNInputDeviceManager.cpp:78-130 | the startup loop never drops an existing registry |
| `DeviceManager.StartupAppendsAccepted` | VRPNInput/Source/VRPNInput/Private/VRPNInputDeviceManager.cpp:78-130 | after startup the registry holds its old devices followed by exactly the accepted sections' adapters, in section order; it exists iff it existed before or something was accepted |
| `DeviceManager.AcceptedComeFromSections` | VRPNInput/Source/VRPNInput/Private/VRPNInputDeviceManager.cpp:83-129 | every registered adapter comes from a section with `Type=` naming its kind and an `Address=`, that its ParseConfig accepted, and it is connected iff that section is enabled |
| `DeviceManager.StartupKeepsExistingRegistry` | VRPNInput/Source/VRPNInput/Private/VRPNInputDeviceManager.cpp:124-129 | startup after the registry exists only appends to it |
| `DeviceManager.CreateInputDevice` | VRPNInput/Source/VRPNInput/Private/VRPNInputDeviceManager.cpp:136-144 | the registry is returned and kept; it is created empty only when there was none |
| `DeviceManager.CreateInputDeviceIsStable` | VRPNInput/Source/VRPNInput/Private/VRPNInputDeviceManager.cpp:137-143 | later calls return the same registry |
| `DeviceManager.SendControllerEvents` | VRPNInput/Source/VRPNInput/Private/VRPNInputDeviceManager.cpp:170-175 | every device is polled exactly once in registry order; the events are each device's events, one device after another |
| `DeviceManager.DisabledDevicesContributeNothing` | VRPNInput/Source/VRPNInput/Private/VRPNInputDeviceManager.cpp:171-174 | disabled devices add nothing to a frame's events |
| `DeviceManager.Release` | VRPNInput/Source/VRPNInput/Private/VRPNInputDevice.cpp:42-44 | an adapter's destructor releases its remote |
| `DeviceManager.Destroy` | VRPNInput/Source/VRPNInput/Private/VRPNInputDeviceManager.cpp:163-168 | the registry's destructor releases every owned adapter, in order, and leaves the registry empty |
| `DeviceManager.ReleasedAreSilent` | VRPNInput/Source/VRPNInput/Private/VRPNInputDeviceManager.cpp:163-168 | released adapters never emit again |

## Left out

- **VRPN remotes.** Remotes, `mainloop` and callback registration are a foreign network library. A pump is modelled as delivering a sequence of reports (`DeviceManager.Deliver`, `DeviceManager.Poll`). The pose query's own pump delivers reports that do not change which sensor matches and do not clear dirty flags, so it is modelled as reports delivered before the query.
- **Host calls.** Slate key and analog dispatch, key registration (`EKeys::AddKey`) and modular-feature registration become records: emitted `HostEvent`s, announced `KeyDetails`, and the tracker's `motionController` flag. The plugin's own registration at startup, and the modifier-key state attached to events, are not modelled.
- **Engine string and config parsing.** `FParse::Value`, `InitFromString`, `Atof` and `ToBool` are not modelled. Each entry's and section's fields arrive already read, absent fields as `None`, and unreadable offsets as `Malformed`. So a field match inside a longer field name (`Id=` inside `PlayerId=`) is not modelled either. A section's entries of one kind arrive in the order the engine's `MultiFindPointer` returns them, which the engine's multi-map does not promise to be file order; "last usable entry" below means last in that order.
- **Transform numerics.** Quaternion rotation, the quaternion product and the quaternion-to-rotator conversion, including the normalisation of the rotation offset's axis, are parameters (`Transform.Numerics`). The spherical interpolation in the tracker callback is not modelled, because its result is overwritten straight away. The cached first game or editor world, with its world-to-metres setting, is the parameter `worldToMeters`. Floats are modelled as reals.
- **Locking and threading.** The shared critical section and the scope locks are not modelled. The model is a single-threaded interleaving of callbacks and Updates.
- **Startup I/O and lifecycle.** Locating the config file, reading the command line (including splitting the enabled-devices list), listing section names and `ShutdownModule` are not modelled. `DeviceManager.StartupModule` takes the sections and the enabled-devices list as parameters.
- **Leaked adapters.** An adapter whose ParseConfig fails is never deleted. Its remote stays open but is never pumped again, so the model simply drops it.
- **Map iteration order.** The tracker's id-keyed sensor map is modelled as a sequence in insertion order, where re-adding an id replaces that sensor in place. That order decides which sensor a pose query finds first and the order of Update's emissions.
- **Analog bounds.** Report counts are at most `vrpn_CHANNEL_MAX` (128 in VRPN) by the type `AnalogDevice.ChannelCount`. Channel values are modelled as reals.
- **Logging.** The `UE_LOG` messages for malformed entries, unknown sensor ids, skipped sections and created devices have no effect on the model's state and are not modelled.
- **Build files.** `VRPNInput.Build.cs` and `VRPN.Build.cs` are build configuration only.
- `TrackerDevice.SixOutputs`: its contract gives the length and kind of the six events. Their keys are tied to the announced keys by `TrackerDevice.EmittedKeysAreAnnounced`. Their values are the components of the transformed pose and of its rotator; since the rotation numerics are parameters, no further property of the values is stated.
- `DeviceManager.StartupModule`: its contract only says that an existing registry survives. The registry's contents are stated by `DeviceManager.StartupAppendsAccepted`.

## Findings

| source | as written | input that shows it | evidently intended | confidence | as-written member | corrected member |
|---|---|---|---|---|---|---|
| VRPNInput/Source/VRPNInput/Private/VRPNInputDevice.cpp:387-396 | the analog constructor never sets `num_channel` or `channels`, so an Update before the first report loops over whatever count the allocation held | an enabled analog device with `Channel=(Id=0,Name=Channel0,Description=...)`, a leftover count of 1 and a leftover value of 0.5: the first Update emits 0.5 on Channel0 before any report | start with zero channels, so nothing is emitted before the first report | not executed | `AnalogDevice.UninitialisedCountEmitsUnreported` | `AnalogDevice.FreshAdapterIsSilent` |

=== FILE: analog.dfy ===
/**
 * The analog adapter. The remote's change callback overwrites the adapter's
 * channel count and the first that many channel values; Update emits the
 * current frame again on every call, channel 0 upwards, and stops at the
 * first channel without a binding.
 */
module AnalogDevice {
  import opened Values
  import Config

  /** vrpn_CHANNEL_MAX: the capacity of a VRPN analog report. */
  const ChannelMax: nat := 128

  /** A channel count as a report may carry it: at most the capacity. */
  type ChannelCount = n: int | n <= ChannelMax

  /** A full channel array, as the adapter and each report hold it. */
  type Frame = s: seq<real> | |s| == ChannelMax witness seq(ChannelMax, _ => 0.0)

  /**
   * An analog adapter. `connected` says whether a remote was opened;
   * `numChannel` and `channels` are the last report's count and values;
   * `channelMap` binds channel numbers to key names.
   */
  datatype AnalogAdapter = AnalogAdapter(
    connected: bool,
    numChannel: ChannelCount,
    channels: Frame,
    channelMap: map<int, Key>)

  /**
   * A freshly constructed adapter with the channel count started at 0, so it
   * emits nothing before the first report. The source leaves the count unset
   * (`NewAsWritten`).
   */
  function New(enabled: bool): (r: AnalogAdapter)
    ensures r.connected == enabled && r.channelMap == map[]
    ensures r.numChannel == 0 && Update(r).1 == []
  {
    AnalogAdapter(enabled, 0, seq(ChannelMax, _ => 0.0), map[])
  }

  /**
   * The change callback: record the report's count and copy its first `n`
   * values; values beyond the count keep whatever they held.
   */
  function HandleAnalog(a: AnalogAdapter, n: ChannelCount, values: Frame): (r: AnalogAdapter)
    ensures r.connected == a.connected && r.channelMap == a.channelMap && r.numChannel == n
    ensures forall i :: 0 <= i < ChannelMax ==> r.channels[i] == (if i < n then values[i] else a.channels[i])
  {
    a.(numChannel := n,
       channels := seq(ChannelMax, i requires 0 <= i < ChannelMax => if i < n then values[i] else a.channels[i]))
  }

  /** The events for channels `from` upwards, up to the count or the first unbound channel. */
  function EmitChannels(a: AnalogAdapter, from: nat): (r: seq<HostEvent>)
    decreases a.numChannel - from
    ensures from + |r| <= a.numChannel || r == []
    ensures forall c :: from <= c < from + |r| ==>
      c in a.channelMap && r[c - from] == AnalogInput(a.channelMap[c], a.channels[c])
    ensures from + |r| < a.numChannel ==> from + |r| !in a.channelMap
  {
    if from >= a.numChannel || from !in a.channelMap then []
    else [AnalogInput(a.channelMap[from], a.channels[from])] + EmitChannels(a, from + 1)
  }

  /**
   * One Update. Without a remote nothing happens. Otherwise channels 0, 1, ...
   * below the count are emitted with their current values, stopping at the
   * first channel without a binding. The adapter's state never changes.
   */
  function Update(a: AnalogAdapter): (r: (AnalogAdapter, seq<HostEvent>))
    ensures r.0 == a
    ensures !a.connected ==> r.1 == []
    ensures a.connected ==> |r.1| <= a.numChannel || r.1 == []
    ensures forall k :: 0 <= k < |r.1| ==>
      k in a.channelMap && r.1[k] == AnalogInput(a.channelMap[k], a.channels[k])
    ensures a.connected && |r.1| < a.numChannel ==> |r.1| !in a.channelMap
  {
    if !a.connected then (a, [])
    else
      var out := EmitChannels(a, 0);
      assert forall k :: 0 <= k < |out| ==> out[k - 0] == out[k];
      (a, out)
  }

  /**
   * ParseConfig: reads the section's `Channel=` entries into the binding
   * table, announcing each bound channel as a float axis; fails when there
   * are no entries or the table stays empty.
   */
  function ParseConfig(a: AnalogAdapter, s: Config.Section): (r: (AnalogAdapter, seq<KeyDetails>, bool))
    ensures r.0.connected == a.connected && r.0.numChannel == a.numChannel && r.0.channels == a.channels
    ensures r.2 <==> |s.channels| > 0 && (|a.channelMap| > 0 || Config.AnyWellFormed(s.channels))
    ensures |s.channels| == 0 ==> r == (a, [], false)
    ensures |s.channels| > 0 ==> r.0.channelMap.Keys == a.channelMap.Keys + Config.WellFormedIds(s.channels)
    ensures |s.channels| > 0 ==> (r.0.channelMap, r.1) == Config.AddBindings(a.channelMap, s.channels, FloatAxis)
  {
    var p := Config.ParseBindings(a.channelMap, s.channels, FloatAxis);
    (a.(channelMap := p.bindings), p.registered, p.ok)
  }

  /**
   * A report followed by an Update: when all of its `n` channels are bound,
   * the Update emits exactly the report's first `n` values, in channel order.
   */
  lemma ReportThenUpdate(a: AnalogAdapter, n: ChannelCount, values: Frame)
    requires a.connected
    requires forall k :: 0 <= k < n ==> k in a.channelMap
    ensures var out := Update(HandleAnalog(a, n, values)).1;
      && |out| == (if n < 0 then 0 else n)
      && forall k :: 0 <= k < |out| ==> out[k] == AnalogInput(a.channelMap[k], values[k])
  {
  }

  /**
   * Stale values past the count are never emitted: whatever the adapter held
   * before, after a report of `n` channels only the report's values reach the host.
   */
  lemma StaleTailIsNeverEmitted(a: AnalogAdapter, n: ChannelCount, values: Frame)
    ensures var out := Update(HandleAnalog(a, n, values)).1;
      forall k :: 0 <= k < |out| ==> k < n && out[k].value == values[k]
  {
  }

  /** Without new reports, every Update re-emits the same frame. */
  lemma UpdateRepeats(a: AnalogAdapter)
    ensures Update(Update(a).0) == Update(a)
  {
  }

  /** A fresh adapter emits nothing, whatever its configuration, until a report arrives. */
  lemma FreshAdapterIsSilent(enabled: bool, s: Config.Section)
    ensures Update(ParseConfig(New(enabled), s).0).1 == []
  {
  }

  /**
   * The adapter as the source constructs it: the count and the values hold
   * whatever the allocation contained (`indeterminate`, `garbage`).
   */
  function NewAsWritten(enabled: bool, indeterminate: ChannelCount, garbage: Frame): (r: AnalogAdapter)
    ensures r.connected == enabled && r.channelMap == map[]
    ensures r.numChannel == indeterminate && r.channels == garbage
  {
    AnalogAdapter(enabled, indeterminate, garbage, map[])
  }

  /**
   * With the count left uninitialised, an Update before any report can emit a
   * value that no report carried: here the section binds channel 0, the
   * leftover count is 1, and the leftover value 0.5 reaches the host.
   */
  lemma UninitialisedCountEmitsUnreported(s: Config.Section)
    requires s.channels == [Config.Entry(Some(0), Some("Channel0"), Some("First channel"), None, None)]
    ensures var a := ParseConfig(NewAsWritten(true, 1, seq(ChannelMax, _ => 0.5)), s).0;
      Update(a).1 == [AnalogInput("Channel0", 0.5)]
  {
    var e := s.channels[0];
    assert s.channels[..0] == [];
    assert Config.AddBindings(map[], s.channels, FloatAxis).0 == map[0 := "Channel0"];
    var a := ParseConfig(NewAsWritten(true, 1, seq(ChannelMax, _ => 0.5)), s).0;
    assert a.channelMap == map[0 := "Channel0"];
    assert EmitChannels(a, 1) == [];
  }
}

=== FILE: button.dfy ===
/**
 * The button adapter. The remote's change callback pushes every report on a
 * stack without looking at the binding table; Update pops the stack newest
 * first, turning each report into a key-down (state 1) or key-up (any other
 * state) event, and gives up on the rest of the stack at the first report
 * whose button has no binding.
 */
module ButtonDevice {
  import opened Values
  import Config

  /** One change report of the button remote: which button, and its new state. */
  datatype ButtonEvent = ButtonEvent(button: int, state: int)

  /**
   * A button adapter. `connected` says whether a remote was opened (only for
   * an enabled device); `stack` holds the reports not yet handled, oldest
   * first; `buttons` binds button ids to key names.
   */
  datatype ButtonAdapter = ButtonAdapter(connected: bool, stack: seq<ButtonEvent>, buttons: map<int, Key>)

  /**
   * A freshly constructed adapter: a remote only when enabled, nothing
   * buffered, nothing bound; an Update before any report does nothing.
   */
  function New(enabled: bool): (r: ButtonAdapter)
    ensures r.connected == enabled && r.stack == [] && r.buttons == map[]
    ensures Update(r) == (r, [])
  {
    ButtonAdapter(enabled, [], map[])
  }

  /** The change callback: buffer the report, whatever its button. */
  function HandleButton(a: ButtonAdapter, e: ButtonEvent): (r: ButtonAdapter)
    ensures r.connected == a.connected && r.buttons == a.buttons
    ensures |r.stack| == |a.stack| + 1 && r.stack[..|a.stack|] == a.stack && r.stack[|a.stack|] == e
  {
    a.(stack := a.stack + [e])
  }

  /** The host event for one report of a bound button. */
  function KeyEvent(e: ButtonEvent, key: Key): (r: HostEvent)
    ensures r.key == key
    ensures r.KeyDown? <==> e.state == 1
    ensures r.KeyDown? || r.KeyUp?
  {
    if e.state == 1 then KeyDown(key) else KeyUp(key)
  }

  /** Every report of `stack` is for a bound button. */
  predicate AllBound(stack: seq<ButtonEvent>, buttons: map<int, Key>) {
    forall j :: 0 <= j < |stack| ==> stack[j].button in buttons
  }

  /**
   * Reference definition: the events of the bound reports of `stack`, newest
   * first; unbound reports contribute nothing.
   */
  function Surviving(stack: seq<ButtonEvent>, buttons: map<int, Key>): seq<HostEvent> {
    if |stack| == 0 then []
    else
      var e := stack[|stack| - 1];
      (if e.button in buttons then [KeyEvent(e, buttons[e.button])] else [])
        + Surviving(stack[..|stack| - 1], buttons)
  }

  /**
   * One Update. Without a remote nothing happens. Otherwise reports are popped
   * newest first; each bound one is emitted, and an unbound one is discarded
   * and ends the Update, leaving the older reports on the stack.
   */
  function Update(a: ButtonAdapter): (r: (ButtonAdapter, seq<HostEvent>))
    decreases |a.stack|
    ensures !a.connected ==> r == (a, [])
    ensures r.0.connected == a.connected && r.0.buttons == a.buttons
    ensures |r.0.stack| <= |a.stack| && r.0.stack == a.stack[..|r.0.stack|]
    ensures a.connected ==>
      || (|r.0.stack| == 0 && AllBound(a.stack, a.buttons))
      || (&& |r.0.stack| < |a.stack|
          && a.stack[|r.0.stack|].button !in a.buttons
          && AllBound(a.stack[|r.0.stack| + 1..], a.buttons))
  {
    if !a.connected || |a.stack| == 0 then (a, [])
    else
      var n := |a.stack|;
      var e := a.stack[n - 1];
      var popped := a.(stack := a.stack[..n - 1]);
      if e.button !in a.buttons then (popped, [])
      else
        var (next, out) := Update(popped);
        assert forall j :: |next.stack| < j < n - 1 ==> popped.stack[j] == a.stack[j];
        (next, [KeyEvent(e, a.buttons[e.button])] + out)
  }

  /**
   * ParseConfig: reads the section's `Button=` entries into the binding table,
   * announcing each bound button as a gamepad key; fails when there are no
   * entries or the table stays empty.
   */
  function ParseConfig(a: ButtonAdapter, s: Config.Section): (r: (ButtonAdapter, seq<KeyDetails>, bool))
    ensures r.0.connected == a.connected && r.0.stack == a.stack
    ensures r.2 <==> |s.buttons| > 0 && (|a.buttons| > 0 || Config.AnyWellFormed(s.buttons))
    ensures |s.buttons| == 0 ==> r == (a, [], false)
    ensures |s.buttons| > 0 ==> r.0.buttons.Keys == a.buttons.Keys + Config.WellFormedIds(s.buttons)
    ensures |s.buttons| > 0 ==> (r.0.buttons, r.1) == Config.AddBindings(a.buttons, s.buttons, GamepadKey)
  {
    var p := Config.ParseBindings(a.buttons, s.buttons, GamepadKey);
    (a.(buttons := p.bindings), p.registered, p.ok)
  }

  // ---------------------------------------------------------------------
  // What repeated Updates make of a stack.

  /**
   * One Update emits the events of exactly the reports it removed from the
   * stack, newest first (the unbound report it stopped at contributes none).
   */
  lemma {:induction false} UpdateEmitsRemovedPart(a: ButtonAdapter)
    requires a.connected
    ensures Update(a).1 == Surviving(a.stack[|Update(a).0.stack|..], a.buttons)
    decreases |a.stack|
  {
    if |a.stack| > 0 {
      var n := |a.stack|;
      var e := a.stack[n - 1];
      var popped := a.(stack := a.stack[..n - 1]);
      var k := |Update(a).0.stack|;
      if e.button !in a.buttons {
        assert a.stack[k..] == [e];
        assert [e][..0] == [];
      } else {
        UpdateEmitsRemovedPart(popped);
        var ev := KeyEvent(e, a.buttons[e.button]);
        assert Update(a) == (Update(popped).0, [ev] + Update(popped).1);
        assert a.stack[k..][n - 1 - k] == e;
        assert popped.stack[k..] == a.stack[k..][..n - 1 - k];
        assert Surviving(a.stack[k..], a.buttons) == [ev] + Surviving(popped.stack[k..], a.buttons);
      }
    }
  }

  /** Calls Update until the stack is empty, concatenating what each call emits. */
  function DrainAll(a: ButtonAdapter): (r: (ButtonAdapter, seq<HostEvent>))
    decreases |a.stack|
  {
    if !a.connected || |a.stack| == 0 then (a, [])
    else
      var (next, out) := Update(a);
      var (last, rest) := DrainAll(next);
      (last, out + rest)
  }

  /** The events of a stack split at `k`: the newer part's come first. */
  lemma {:induction false} SurvivingSplit(stack: seq<ButtonEvent>, buttons: map<int, Key>, k: nat)
    requires k <= |stack|
    ensures Surviving(stack, buttons) == Surviving(stack[k..], buttons) + Surviving(stack[..k], buttons)
    decreases |stack|
  {
    if k < |stack| {
      var n := |stack|;
      SurvivingSplit(stack[..n - 1], buttons, k);
      assert stack[..n - 1][k..] == stack[k..][..n - 1 - k];
      assert stack[..n - 1][..k] == stack[..k];
      assert stack[k..][n - 1 - k] == stack[n - 1];
    } else {
      assert stack[k..] == [];
      assert stack[..k] == stack;
    }
  }

  /**
   * However many Updates it takes, every buffered report of a bound button is
   * emitted exactly once, newest first, every unbound one is dropped, and the
   * stack ends empty.
   */
  lemma {:induction false} DrainAllEmitsSurviving(a: ButtonAdapter)
    requires a.connected
    ensures DrainAll(a).1 == Surviving(a.stack, a.buttons)
    ensures DrainAll(a).0.stack == []
    decreases |a.stack|
  {
    if |a.stack| > 0 {
      var (next, out) := Update(a);
      DrainAllEmitsSurviving(next);
      UpdateEmitsRemovedPart(a);
      SurvivingSplit(a.stack, a.buttons, |next.stack|);
    }
  }

  /**
   * A report pushed just before an Update is the first thing that Update
   * handles: its event comes first if its button is bound; otherwise the
   * Update emits nothing and leaves the older reports untouched.
   */
  lemma NewestFirst(a: ButtonAdapter, e: ButtonEvent)
    requires a.connected
    ensures var r := Update(HandleButton(a, e));
      if e.button in a.buttons then |r.1| > 0 && r.1[0] == KeyEvent(e, a.buttons[e.button])
      else r.1 == [] && r.0.stack == a.stack
  {
    var b := HandleButton(a, e);
    assert b.stack[..|b.stack| - 1] == a.stack;
  }

  /**
   * A press and a release of one bound button before a single Update are both
   * emitted, release first, and nothing stays buffered.
   */
  lemma PressThenRelease(a: ButtonAdapter, button: int)
    requires a.connected && a.stack == [] && button in a.buttons
    ensures var r := Update(HandleButton(HandleButton(a, ButtonEvent(button, 1)), ButtonEvent(button, 0)));
      r.1 == [KeyUp(a.buttons[button]), KeyDown(a.buttons[button])] && r.0.stack == []
  {
    var press, release := ButtonEvent(button, 1), ButtonEvent(button, 0);
    var b := HandleButton(HandleButton(a, press), release);
    assert b.stack == [press, release];
    assert AllBound(b.stack, b.buttons);
    var r := Update(b);
    assert |r.0.stack| == 0;
    UpdateEmitsRemovedPart(b);
    assert b.stack[0..] == b.stack;
    SurvivingPair(press, release, b.buttons);
  }

  /** Two bound reports come out newest first. */
  lemma SurvivingPair(older: ButtonEvent, newer: ButtonEvent, buttons: map<int, Key>)
    requires older.button in buttons && newer.button in buttons
    ensures Surviving([older, newer], buttons) == [KeyEvent(newer, buttons[newer.button]), KeyEvent(older, buttons[older.button])]
  {
    assert [older, newer][..1] == [older];
    assert [older][..0] == [];
    assert Surviving([older], buttons) == [KeyEvent(older, buttons[older.button])];
    assert Surviving([older, newer], buttons)
        == [KeyEvent(newer, buttons[newer.button])] + Surviving([older], buttons);
  }
}

=== FILE: config.dfy ===
/**
 * One device section of the plugin's configuration file, already read into
 * fields, and the binding table that button and analog adapters build from
 * their `Button=` / `Channel=` entries.
 */
module Config {
  import opened Values

  /**
   * One `Button=`, `Tracker=` or `Channel=` value of a section, with each of
   * its `Id=`, `Name=`, `Description=`, `PlayerId=` and `Hand=` fields already
   * read out of the string (`None` when the field is absent).
   */
  datatype Entry = Entry(
    id: Option<int>,
    name: Option<string>,
    description: Option<string>,
    playerId: Option<int>,
    hand: Option<string>)

  /** An entry is usable when it carries an id, a name and a description. */
  predicate WellFormed(e: Entry) {
    e.id.Some? && e.name.Some? && e.description.Some?
  }

  /** Some entry of `entries` is usable. */
  predicate AnyWellFormed(entries: seq<Entry>) {
    exists i :: 0 <= i < |entries| && WellFormed(entries[i])
  }

  /**
   * Entry `i` is usable and no later usable entry reuses its id, so it is the
   * one a table built by adding the entries in order keeps for that id.
   */
  predicate Latest(entries: seq<Entry>, i: int)
    requires 0 <= i < |entries|
  {
    && WellFormed(entries[i])
    && forall j :: i < j < |entries| && WellFormed(entries[j]) ==> entries[j].id != entries[i].id
  }

  /** The ids of the usable entries. */
  function WellFormedIds(entries: seq<Entry>): set<int> {
    set i | 0 <= i < |entries| && WellFormed(entries[i]) :: entries[i].id.value
  }

  /** The usable entries, in order. */
  function Usable(entries: seq<Entry>): (r: seq<Entry>)
    ensures forall k :: 0 <= k < |r| ==> WellFormed(r[k])
    ensures |r| <= |entries|
  {
    if |entries| == 0 then []
    else
      var last := entries[|entries| - 1];
      Usable(entries[..|entries| - 1]) + (if WellFormed(last) then [last] else [])
  }

  /** A `RotationOffset=` value: an axis vector and `Angle=` in degrees. */
  datatype AxisAngle = AxisAngle(axis: Vec3, angleDegrees: real)

  /**
   * One section of the configuration file. `trackerUnitsToUE4Units` is what
   * the engine's float conversion made of the value, `flipZAxis` what its
   * boolean conversion made of it; both are `None` when the key is absent.
   */
  datatype Section = Section(
    name: string,
    deviceType: Option<string>,
    address: Option<string>,
    buttons: seq<Entry>,
    trackers: seq<Entry>,
    channels: seq<Entry>,
    rotationOffset: Field<AxisAngle>,
    positionOffset: Field<Vec3>,
    trackerUnitsToUE4Units: Option<real>,
    flipZAxis: Option<bool>)

  /** The key a usable entry announces: its name, described by its description. */
  function Describe(e: Entry, kind: KeyKind): KeyDetails
    requires WellFormed(e)
  {
    KeyDetails(e.name.value, e.description.value, kind)
  }

  lemma WellFormedIdsSnoc(entries: seq<Entry>)
    requires |entries| > 0
    ensures var last := entries[|entries| - 1];
      WellFormedIds(entries) ==
        WellFormedIds(entries[..|entries| - 1]) + (if WellFormed(last) then {last.id.value} else {})
  {
    var init := entries[..|entries| - 1];
    var last := entries[|entries| - 1];
    forall id | id in WellFormedIds(entries)
      ensures id in WellFormedIds(init) + (if WellFormed(last) then {last.id.value} else {})
    {
      var i :| 0 <= i < |entries| && WellFormed(entries[i]) && entries[i].id.value == id;
      if i < |init| {
        assert init[i] == entries[i];
      }
    }
    forall id | id in WellFormedIds(init)
      ensures id in WellFormedIds(entries)
    {
      var i :| 0 <= i < |init| && WellFormed(init[i]) && init[i].id.value == id;
      assert entries[i] == init[i];
    }
  }

  /**
   * Adds, in order, a binding from id to name for every usable entry (a later
   * entry replaces an earlier one with the same id) and announces its key.
   */
  function AddBindings(bindings: map<int, Key>, entries: seq<Entry>, kind: KeyKind)
    : (r: (map<int, Key>, seq<KeyDetails>))
    ensures r.0.Keys == bindings.Keys + WellFormedIds(entries)
  {
    if |entries| == 0 then (bindings, [])
    else
      var e := entries[|entries| - 1];
      var (m, announced) := AddBindings(bindings, entries[..|entries| - 1], kind);
      WellFormedIdsSnoc(entries);
      if WellFormed(e) then (m[e.id.value := e.name.value], announced + [Describe(e, kind)])
      else (m, announced)
  }

  /** Dropping the last entry keeps every earlier latest entry latest. */
  lemma LatestInPrefix(entries: seq<Entry>, i: int)
    requires 0 <= i < |entries| - 1 && Latest(entries, i)
    ensures Latest(entries[..|entries| - 1], i)
  {
    var init := entries[..|entries| - 1];
    forall j | i < j < |init| && WellFormed(init[j])
      ensures init[j].id != init[i].id
    {
      assert init[j] == entries[j];
    }
  }

  /**
   * The table maps every id to the name of the last usable entry carrying it,
   * and leaves ids no usable entry mentions as they were.
   */
  lemma {:induction false} AddBindingsLatestWins(bindings: map<int, Key>, entries: seq<Entry>, kind: KeyKind)
    ensures var m := AddBindings(bindings, entries, kind).0;
      && (forall i :: 0 <= i < |entries| && Latest(entries, i) ==> m[entries[i].id.value] == entries[i].name.value)
      && (forall id :: id in bindings && id !in WellFormedIds(entries) ==> m[id] == bindings[id])
  {
    if |entries| > 0 {
      var init := entries[..|entries| - 1];
      var e := entries[|entries| - 1];
      AddBindingsLatestWins(bindings, init, kind);
      WellFormedIdsSnoc(entries);
      var m := AddBindings(bindings, entries, kind).0;
      forall i | 0 <= i < |entries| && Latest(entries, i)
        ensures m[entries[i].id.value] == entries[i].name.value
      {
        if i < |init| {
          LatestInPrefix(entries, i);
          assert init[i] == entries[i];
        }
      }
    }
  }

  /** One key is announced per usable entry, in the entries' order. */
  lemma {:induction false} AddBindingsAnnounces(bindings: map<int, Key>, entries: seq<Entry>, kind: KeyKind)
    ensures var announced := AddBindings(bindings, entries, kind).1;
      && |announced| == |Usable(entries)|
      && forall k :: 0 <= k < |announced| ==> announced[k] == Describe(Usable(entries)[k], kind)
  {
    if |entries| > 0 {
      AddBindingsAnnounces(bindings, entries[..|entries| - 1], kind);
    }
  }

  /** What a button or analog adapter's ParseConfig leaves behind. */
  datatype BindingParse = BindingParse(bindings: map<int, Key>, registered: seq<KeyDetails>, ok: bool)

  /**
   * The shared ParseConfig of button and analog adapters: fails at once when
   * the section has no entries of the kind, otherwise adds every usable entry
   * and succeeds iff the table ends up non-empty.
   */
  function ParseBindings(bindings: map<int, Key>, entries: seq<Entry>, kind: KeyKind): (r: BindingParse)
    ensures |entries| == 0 ==> r == BindingParse(bindings, [], false)
    ensures r.ok <==> |entries| > 0 && (|bindings| > 0 || AnyWellFormed(entries))
    ensures |entries| > 0 ==> (r.bindings, r.registered) == AddBindings(bindings, entries, kind)
  {
    if |entries| == 0 then BindingParse(bindings, [], false)
    else
      var (m, announced) := AddBindings(bindings, entries, kind);
      NonEmptyTable(bindings, entries, m);
      BindingParse(m, announced, |m| > 0)
  }

  /** A map is non-empty exactly when some key is in it. */
  lemma NonEmptyMap<K, V>(m: map<K, V>)
    ensures |m| > 0 <==> exists k :: k in m
  {
    if |m| > 0 {
      var k :| k in m.Keys;
    } else {
      assert m == map[];
    }
  }

  /** A table with keys `bindings.Keys + WellFormedIds(entries)` is non-empty iff one of the two is. */
  lemma NonEmptyTable(bindings: map<int, Key>, entries: seq<Entry>, m: map<int, Key>)
    requires m.Keys == bindings.Keys + WellFormedIds(entries)
    ensures |m| > 0 <==> |bindings| > 0 || AnyWellFormed(entries)
  {
    NonEmptyMap(m);
    NonEmptyMap(bindings);
    if AnyWellFormed(entries) {
      var i :| 0 <= i < |entries| && WellFormed(entries[i]);
      assert entries[i].id.value in m;
    }
    if exists k :: k in m {
      var id :| id in m;
      if id !in bindings {
        assert id in WellFormedIds(entries);
      }
    }
  }
}

=== FILE: manager.dfy ===
/**
 * The plugin's device registry. At startup every configuration section with a
 * `Type=` and an `Address=` creates the adapter its type names, enabled or not
 * depending on the enabled-devices list; the adapter joins the registry only
 * when its ParseConfig succeeds. Each frame, SendControllerEvents runs every
 * adapter's Update once, in registry order.
 */
module DeviceManager {
  import opened Values
  import Config
  import Transform
  import ButtonDevice
  import TrackerDevice
  import AnalogDevice

  /** The three adapter kinds behind the registry's common device interface. */
  datatype Adapter =
    | Button(button: ButtonDevice.ButtonAdapter)
    | Tracker(tracker: TrackerDevice.TrackerAdapter)
    | Analog(analog: AnalogDevice.AnalogAdapter)

  /** The adapter opened a remote, so it polls and receives reports. */
  predicate Connected(a: Adapter) {
    match a
    case Button(b) => b.connected
    case Tracker(t) => t.connected
    case Analog(an) => an.connected
  }

  /** The `Type=` value that creates an adapter of this kind. */
  function KindName(a: Adapter): string {
    match a
    case Button(_) => "Button"
    case Tracker(_) => "Tracker"
    case Analog(_) => "Analog"
  }

  /** One report a remote can deliver to its adapter's change callback. */
  datatype Report =
    | ButtonReport(event: ButtonDevice.ButtonEvent)
    | TrackerReport(sensor: int, position: Vec3, quat: Quat)
    | AnalogReport(count: AnalogDevice.ChannelCount, values: AnalogDevice.Frame)

  /**
   * Runs the change callback for one report. An adapter without a remote
   * never receives reports, and a remote only delivers reports of its own
   * kind, so anything else leaves the adapter as it is.
   */
  function Deliver(a: Adapter, r: Report): (a': Adapter)
    ensures !Connected(a) ==> a' == a
    ensures KindName(a') == KindName(a) && Connected(a') == Connected(a)
    ensures Connected(a) && a.Button? && r.ButtonReport? ==> a' == Button(ButtonDevice.HandleButton(a.button, r.event))
    ensures Connected(a) && a.Tracker? && r.TrackerReport? ==>
      a' == Tracker(TrackerDevice.HandleTracker(a.tracker, r.sensor, r.position, r.quat))
    ensures Connected(a) && a.Analog? && r.AnalogReport? ==> a' == Analog(AnalogDevice.HandleAnalog(a.analog, r.count, r.values))
  {
    if !Connected(a) then a
    else
      match (a, r)
      case (Button(b), ButtonReport(e)) => Button(ButtonDevice.HandleButton(b, e))
      case (Tracker(t), TrackerReport(s, p, q)) => Tracker(TrackerDevice.HandleTracker(t, s, p, q))
      case (Analog(an), AnalogReport(n, v)) => Analog(AnalogDevice.HandleAnalog(an, n, v))
      case _ => a
  }

  /** Delivers reports in order, as one pump of the remote does. */
  function DeliverAll(a: Adapter, reports: seq<Report>): (r: Adapter)
    ensures KindName(r) == KindName(a) && Connected(r) == Connected(a)
  {
    if |reports| == 0 then a
    else Deliver(DeliverAll(a, reports[..|reports| - 1]), reports[|reports| - 1])
  }

  /** The adapter's Update, after the remote was pumped. */
  function Update(a: Adapter, nx: Transform.Numerics): (r: (Adapter, seq<HostEvent>))
    ensures KindName(r.0) == KindName(a) && Connected(r.0) == Connected(a)
    ensures !Connected(a) ==> r == (a, [])
  {
    match a
    case Button(b) => var (b', out) := ButtonDevice.Update(b); (Button(b'), out)
    case Tracker(t) => var (t', out) := TrackerDevice.Update(t, nx); (Tracker(t'), out)
    case Analog(an) => var (an', out) := AnalogDevice.Update(an); (Analog(an'), out)
  }

  /**
   * One Update as the device runs it: the pump delivers the pending reports to
   * the change callback, then the buffered state is turned into host events.
   */
  function Poll(a: Adapter, pending: seq<Report>, nx: Transform.Numerics): (r: (Adapter, seq<HostEvent>))
    ensures KindName(r.0) == KindName(a) && Connected(r.0) == Connected(a)
  {
    Update(DeliverAll(a, pending), nx)
  }

  /** The button events among `reports`, in order. */
  function ButtonEvents(reports: seq<Report>): seq<ButtonDevice.ButtonEvent> {
    if |reports| == 0 then []
    else
      var last := reports[|reports| - 1];
      ButtonEvents(reports[..|reports| - 1]) + (if last.ButtonReport? then [last.event] else [])
  }

  /**
   * A pump of an enabled button adapter pushes every button report on its
   * stack, in arrival order, and leaves everything else alone.
   */
  lemma {:induction false} PumpBuffersButtonReports(b: ButtonDevice.ButtonAdapter, reports: seq<Report>)
    requires b.connected
    ensures DeliverAll(Button(b), reports) == Button(b.(stack := b.stack + ButtonEvents(reports)))
  {
    if |reports| > 0 {
      var init := reports[..|reports| - 1];
      PumpBuffersButtonReports(b, init);
      if reports[|reports| - 1].ButtonReport? {
        assert b.stack + ButtonEvents(reports) == b.stack + ButtonEvents(init) + [reports[|reports| - 1].event];
      } else {
        assert ButtonEvents(reports) == ButtonEvents(init);
      }
    }
  }

  /** Without a remote, reports are never delivered, so nothing changes. */
  lemma {:induction false} DisconnectedIgnoresReports(a: Adapter, reports: seq<Report>)
    requires !Connected(a)
    ensures DeliverAll(a, reports) == a
  {
    if |reports| > 0 {
      DisconnectedIgnoresReports(a, reports[..|reports| - 1]);
    }
  }

  /** A disabled device emits nothing and stays as it is, whatever its remote would have sent. */
  lemma DisabledDeviceIsSilent(a: Adapter, pending: seq<Report>, nx: Transform.Numerics)
    requires !Connected(a)
    ensures Poll(a, pending, nx) == (a, [])
  {
    DisconnectedIgnoresReports(a, pending);
  }

  // ---------------------------------------------------------------------
  // Creating and configuring adapters.

  /**
   * The adapter a `Type=` value creates: one of the three names, compared
   * exactly; anything else creates none. Only an enabled adapter opens its
   * remote.
   */
  function CreateAdapter(deviceType: string, enabled: bool): (r: Option<Adapter>)
    ensures r.Some? <==> deviceType == "Tracker" || deviceType == "Button" || deviceType == "Analog"
    ensures r.Some? ==> KindName(r.value) == deviceType && Connected(r.value) == enabled
  {
    if deviceType == "Tracker" then Some(Tracker(TrackerDevice.New(enabled)))
    else if deviceType == "Button" then Some(Button(ButtonDevice.New(enabled)))
    else if deviceType == "Analog" then Some(Analog(AnalogDevice.New(enabled)))
    else None
  }

  /** The adapter's ParseConfig over one section: new state, announced keys, success. */
  function ParseConfig(a: Adapter, s: Config.Section): (r: (Adapter, seq<KeyDetails>, bool))
    ensures KindName(r.0) == KindName(a) && Connected(r.0) == Connected(a)
  {
    match a
    case Button(b) => var (b', keys, ok) := ButtonDevice.ParseConfig(b, s); (Button(b'), keys, ok)
    case Tracker(t) => var (t', keys, ok) := TrackerDevice.ParseConfig(t, s); (Tracker(t'), keys, ok)
    case Analog(an) => var (an', keys, ok) := AnalogDevice.ParseConfig(an, s); (Analog(an'), keys, ok)
  }

  /** ASCII case folding, as the engine's case-insensitive string equality applies it. */
  function LowerAscii(c: char): char {
    if 'A' <= c <= 'Z' then (c as int - 'A' as int + 'a' as int) as char else c
  }

  /** String equality ignoring case. */
  predicate EqualsIgnoreCase(a: string, b: string) {
    |a| == |b| && forall i :: 0 <= i < |a| ==> LowerAscii(a[i]) == LowerAscii(b[i])
  }

  /**
   * A device is enabled when no enabled-devices list was given, or when the
   * list holds its section name (compared ignoring case).
   */
  function IsEnabled(enabledDevices: seq<string>, name: string): (r: bool)
    ensures |enabledDevices| == 0 ==> r
    ensures name in enabledDevices ==> r
    ensures |enabledDevices| > 0 && (forall i :: 0 <= i < |enabledDevices| ==> !EqualsIgnoreCase(enabledDevices[i], name)) ==> !r
  {
    |enabledDevices| == 0 || exists i :: 0 <= i < |enabledDevices| && EqualsIgnoreCase(enabledDevices[i], name)
  }

  /**
   * Whether a section is enabled depends on its name only up to case: two
   * names that differ in letter case are both enabled or both disabled.
   */
  lemma EnabledMatchIgnoresCase(enabledDevices: seq<string>, name: string, other: string)
    requires EqualsIgnoreCase(name, other)
    ensures IsEnabled(enabledDevices, name) == IsEnabled(enabledDevices, other)
  {
    if |enabledDevices| > 0 {
      if IsEnabled(enabledDevices, name) {
        var i :| 0 <= i < |enabledDevices| && EqualsIgnoreCase(enabledDevices[i], name);
        assert EqualsIgnoreCase(enabledDevices[i], other);
      }
      if IsEnabled(enabledDevices, other) {
        var i :| 0 <= i < |enabledDevices| && EqualsIgnoreCase(enabledDevices[i], other);
        assert EqualsIgnoreCase(enabledDevices[i], name);
      }
    }
  }

  /** What the startup loop makes of one section. */
  datatype Outcome =
    | Skipped
    | Rejected(registered: seq<KeyDetails>)
    | Accepted(adapter: Adapter, registered: seq<KeyDetails>)

  /**
   * The per-type success rule of ParseConfig on a fresh adapter: button and
   * analog sections need a usable entry; tracker sections need any `Tracker=`
   * entry at all.
   */
  predicate ParsesOn(deviceType: string, s: Config.Section) {
    || (deviceType == "Button" && |s.buttons| > 0 && Config.AnyWellFormed(s.buttons))
    || (deviceType == "Analog" && |s.channels| > 0 && Config.AnyWellFormed(s.channels))
    || (deviceType == "Tracker" && |s.trackers| > 0)
  }

  /**
   * One iteration of the startup loop: skip a section without `Type=` or
   * `Address=` or with an unknown type; otherwise create the adapter, parse
   * the section into it, and keep it only when parsing succeeds.
   */
  function ConfigureSection(s: Config.Section, enabled: bool): (r: Outcome)
    ensures s.deviceType.None? || s.address.None? ==> r.Skipped?
    ensures r.Accepted? <==> s.deviceType.Some? && s.address.Some? && ParsesOn(s.deviceType.value, s)
    ensures r.Accepted? ==> KindName(r.adapter) == s.deviceType.value && Connected(r.adapter) == enabled
    ensures r.Rejected? ==> r.registered == []
  {
    if s.deviceType.None? || s.address.None? then Skipped
    else
      match CreateAdapter(s.deviceType.value, enabled)
      case None => Skipped
      case Some(a) =>
        var (a', keys, ok) := ParseConfig(a, s);
        FailedParseRegistersNothing(a, s);
        if ok then Accepted(a', keys) else Rejected(keys)
  }

  /**
   * The adapter a section gets registered with is the one its ParseConfig
   * filled: a button or analog adapter holds exactly the section's bindings
   * and announced their keys, a tracker adapter holds the section's sensors
   * and calibration and announced their keys.
   */
  lemma AcceptedIsConfigured(s: Config.Section, enabled: bool)
    ensures var r := ConfigureSection(s, enabled);
      && (r.Accepted? && r.adapter.Button? ==>
            (r.adapter.button.buttons, r.registered) == Config.AddBindings(map[], s.buttons, GamepadKey))
      && (r.Accepted? && r.adapter.Analog? ==>
            (r.adapter.analog.channelMap, r.registered) == Config.AddBindings(map[], s.channels, FloatAxis))
      && (r.Accepted? && r.adapter.Tracker? ==>
            && (r.adapter.tracker.sensors, r.registered) == TrackerDevice.AddSensors([], s.trackers)
            && r.adapter.tracker.calibration == TrackerDevice.ParseCalibration(s))
  {
    var r := ConfigureSection(s, enabled);
    if r.Accepted? {
      var created := CreateAdapter(s.deviceType.value, enabled).value;
      var parsed := ParseConfig(created, s);
      assert r == Accepted(parsed.0, parsed.1);
    }
  }

  /** A usable-free entry list has no usable entries. */
  lemma {:induction false} NoneUsable(entries: seq<Config.Entry>)
    requires !Config.AnyWellFormed(entries)
    ensures Config.Usable(entries) == []
  {
    if |entries| > 0 {
      NoneUsable(entries[..|entries| - 1]);
      assert !Config.WellFormed(entries[|entries| - 1]);
    }
  }

  /**
   * On a fresh adapter, ParseConfig succeeds exactly by the per-type rule, and
   * a failing ParseConfig has announced no key.
   */
  lemma FailedParseRegistersNothing(a: Adapter, s: Config.Section)
    requires a == Button(ButtonDevice.New(Connected(a))) || a == Tracker(TrackerDevice.New(Connected(a)))
          || a == Analog(AnalogDevice.New(Connected(a)))
    ensures ParseConfig(a, s).2 <==> ParsesOn(KindName(a), s)
    ensures !ParseConfig(a, s).2 ==> ParseConfig(a, s).1 == []
  {
    match a
    case Button(b) =>
      assert b.buttons == map[];
      if |s.buttons| > 0 && !Config.AnyWellFormed(s.buttons) {
        NoneUsable(s.buttons);
        Config.AddBindingsAnnounces(b.buttons, s.buttons, GamepadKey);
      }
    case Analog(an) =>
      assert an.channelMap == map[];
      if |s.channels| > 0 && !Config.AnyWellFormed(s.channels) {
        NoneUsable(s.channels);
        Config.AddBindingsAnnounces(an.channelMap, s.channels, FloatAxis);
      }
    case Tracker(_) =>
  }

  // ---------------------------------------------------------------------
  // The registry and the plugin.

  /** The registry: the accepted adapters in the order they were added. */
  datatype Manager = Manager(devices: seq<Adapter>)

  /** The plugin: its registry, once created, and every key announced so far. */
  datatype Plugin = Plugin(manager: Option<Manager>, registered: seq<KeyDetails>)

  /** The registry's devices, or none before it exists. */
  function Devices(p: Plugin): seq<Adapter> {
    match p.manager
    case Some(m) => m.devices
    case None => []
  }

  /** The plugin with a registry: the existing one, or a new empty one. */
  function EnsureManager(p: Plugin): (r: Plugin)
    ensures r.manager.Some? && r.registered == p.registered
    ensures p.manager.Some? ==> r == p
    ensures p.manager.None? ==> r.manager.value.devices == []
  {
    if p.manager.Some? then p else p.(manager := Some(Manager([])))
  }

  /** Appends an adapter to the registry, creating the registry first if needed. */
  function AddInputDevice(p: Plugin, a: Adapter): (r: Plugin)
    ensures r.manager.Some? && Devices(r) == Devices(p) + [a] && r.registered == p.registered
  {
    var q := EnsureManager(p);
    q.(manager := Some(Manager(q.manager.value.devices + [a])))
  }

  /** The adapter an outcome contributes to the registry, if any. */
  function Contribution(o: Outcome): seq<Adapter> {
    if o.Accepted? then [o.adapter] else []
  }

  /** The adapter a section contributes to the registry, if any. */
  function AcceptedBy(s: Config.Section, enabledDevices: seq<string>): seq<Adapter> {
    Contribution(ConfigureSection(s, IsEnabled(enabledDevices, s.name)))
  }

  /**
   * Records one section's outcome: its announced keys are kept, and an
   * accepted adapter is appended to the registry.
   */
  function Record(p: Plugin, o: Outcome): (r: Plugin)
    ensures Devices(r) == Devices(p) + Contribution(o)
    ensures r.manager.Some? <==> p.manager.Some? || o.Accepted?
    ensures r.registered == p.registered + (if o.Skipped? then [] else o.registered)
  {
    match o
    case Skipped => p
    case Rejected(keys) => p.(registered := p.registered + keys)
    case Accepted(a, keys) => AddInputDevice(p, a).(registered := p.registered + keys)
  }

  /** Reference definition: the adapters the sections contribute, in section order. */
  function AcceptedAll(sections: seq<Config.Section>, enabledDevices: seq<string>): seq<Adapter> {
    if |sections| == 0 then []
    else AcceptedAll(sections[..|sections| - 1], enabledDevices) + AcceptedBy(sections[|sections| - 1], enabledDevices)
  }

  lemma AcceptedAllSnoc(sections: seq<Config.Section>, s: Config.Section, enabledDevices: seq<string>)
    ensures AcceptedAll(sections + [s], enabledDevices)
         == AcceptedAll(sections, enabledDevices) + AcceptedBy(s, enabledDevices)
  {
    assert (sections + [s])[..|sections|] == sections;
  }

  /**
   * The startup loop over the sections of the configuration file, in order:
   * each announced key is recorded, and each accepted adapter is appended to
   * the registry, which is created by the first acceptance.
   */
  function StartupModule(p: Plugin, sections: seq<Config.Section>, enabledDevices: seq<string>): (r: Plugin)
    ensures p.manager.Some? ==> r.manager.Some?
  {
    if |sections| == 0 then p
    else
      var last := sections[|sections| - 1];
      Record(StartupModule(p, sections[..|sections| - 1], enabledDevices), ConfigureSection(last, IsEnabled(enabledDevices, last.name)))
  }

  /**
   * After startup the registry holds the devices it held before followed by
   * exactly the accepted adapters, in section order; it exists iff it existed
   * before or some section was accepted.
   */
  lemma {:induction false} StartupAppendsAccepted(p: Plugin, sections: seq<Config.Section>, enabledDevices: seq<string>)
    ensures Devices(StartupModule(p, sections, enabledDevices)) == Devices(p) + AcceptedAll(sections, enabledDevices)
    ensures StartupModule(p, sections, enabledDevices).manager.Some?
        <==> p.manager.Some? || |AcceptedAll(sections, enabledDevices)| > 0
  {
    if |sections| > 0 {
      var init := sections[..|sections| - 1];
      StartupAppendsAccepted(p, init, enabledDevices);
      StartupStep(p, sections, enabledDevices);
    } else {
      assert Devices(p) + [] == Devices(p);
    }
  }

  /** One more section extends the registry by exactly what that section contributes. */
  lemma StartupStep(p: Plugin, sections: seq<Config.Section>, enabledDevices: seq<string>)
    requires |sections| > 0
    ensures var init := sections[..|sections| - 1];
      var last := sections[|sections| - 1];
      var q := StartupModule(p, init, enabledDevices);
      var r := StartupModule(p, sections, enabledDevices);
      && Devices(r) == Devices(q) + AcceptedBy(last, enabledDevices)
      && (r.manager.Some? <==> q.manager.Some? || |AcceptedBy(last, enabledDevices)| > 0)
      && AcceptedAll(sections, enabledDevices) == AcceptedAll(init, enabledDevices) + AcceptedBy(last, enabledDevices)
  {
    var init := sections[..|sections| - 1];
    var last := sections[|sections| - 1];
    assert init + [last] == sections;
    AcceptedAllSnoc(init, last, enabledDevices);
  }

  /**
   * Section `s` yields adapter `a`: it has a `Type=` naming the adapter's kind
   * and an `Address=`, the adapter's ParseConfig accepts it, and the adapter
   * is connected iff the section's name is enabled.
   */
  predicate Yields(s: Config.Section, enabledDevices: seq<string>, a: Adapter) {
    && s.deviceType.Some? && s.address.Some?
    && ParsesOn(s.deviceType.value, s)
    && KindName(a) == s.deviceType.value
    && Connected(a) == IsEnabled(enabledDevices, s.name)
  }

  /** Every registered device came from a section that yields it. */
  lemma {:induction false} AcceptedComeFromSections(sections: seq<Config.Section>, enabledDevices: seq<string>)
    ensures forall a :: a in AcceptedAll(sections, enabledDevices) ==>
      exists i :: 0 <= i < |sections| && Yields(sections[i], enabledDevices, a)
  {
    if |sections| > 0 {
      var init := sections[..|sections| - 1];
      var last := sections[|sections| - 1];
      var tail := AcceptedBy(last, enabledDevices);
      assert tail == [] || ConfigureSection(last, IsEnabled(enabledDevices, last.name)).Accepted?;
      AcceptedComeFromSections(init, enabledDevices);
      forall a | a in AcceptedAll(sections, enabledDevices)
        ensures exists i :: 0 <= i < |sections| && Yields(sections[i], enabledDevices, a)
      {
        if a in tail {
          assert Yields(sections[|sections| - 1], enabledDevices, a);
        } else {
          assert a in AcceptedAll(init, enabledDevices);
          var i :| 0 <= i < |init| && Yields(init[i], enabledDevices, a);
          assert init[i] == sections[i];
        }
      }
    }
  }

  /**
   * CreateInputDevice: the registry, created empty on first use; a registry
   * that already exists is returned as it is.
   */
  function CreateInputDevice(p: Plugin): (r: (Plugin, Manager))
    ensures r.0.manager == Some(r.1) && r.0.registered == p.registered
    ensures p.manager.Some? ==> r == (p, p.manager.value)
    ensures p.manager.None? ==> r.1.devices == []
  {
    var q := EnsureManager(p);
    (q, q.manager.value)
  }

  /** The registry is created at most once: later calls hand out the same one. */
  lemma CreateInputDeviceIsStable(p: Plugin)
    ensures var (q, m) := CreateInputDevice(p);
      CreateInputDevice(q) == (q, m)
  {
  }

  /** Startup after the registry exists adds to that registry instead of replacing it. */
  lemma StartupKeepsExistingRegistry(p: Plugin, sections: seq<Config.Section>, enabledDevices: seq<string>)
    requires p.manager.Some?
    ensures var r := StartupModule(p, sections, enabledDevices);
      && r.manager.Some?
      && |p.manager.value.devices| <= |r.manager.value.devices|
      && r.manager.value.devices[..|p.manager.value.devices|] == p.manager.value.devices
  {
    StartupAppendsAccepted(p, sections, enabledDevices);
  }

  // ---------------------------------------------------------------------
  // Polling and teardown.

  /** Reference definition: the events of polling `devices` in order, device i with `inbox(i)`. */
  function PolledEvents(devices: seq<Adapter>, inbox: nat -> seq<Report>, nx: Transform.Numerics): seq<HostEvent> {
    if |devices| == 0 then []
    else
      var n := |devices| - 1;
      PolledEvents(devices[..n], inbox, nx) + Poll(devices[n], inbox(n), nx).1
  }

  lemma PolledEventsExtend(devices: seq<Adapter>, i: nat, inbox: nat -> seq<Report>, nx: Transform.Numerics)
    requires i < |devices|
    ensures PolledEvents(devices[..i + 1], inbox, nx) == PolledEvents(devices[..i], inbox, nx) + Poll(devices[i], inbox(i), nx).1
  {
    assert devices[..i + 1][..i] == devices[..i];
  }

  /**
   * SendControllerEvents: every registered device is polled exactly once, in
   * registry order, with the reports its remote has pending (`inbox(i)` for
   * device i); the host receives the devices' events one device after another.
   */
  method SendControllerEvents(m: Manager, inbox: nat -> seq<Report>, nx: Transform.Numerics)
    returns (next: Manager, events: seq<HostEvent>)
    ensures |next.devices| == |m.devices|
    ensures forall i :: 0 <= i < |m.devices| ==> next.devices[i] == Poll(m.devices[i], inbox(i), nx).0
    ensures events == PolledEvents(m.devices, inbox, nx)
  {
    var devices: seq<Adapter> := [];
    events := [];
    var i := 0;
    while i < |m.devices|
      invariant 0 <= i <= |m.devices|
      invariant |devices| == i
      invariant forall j :: 0 <= j < i ==> devices[j] == Poll(m.devices[j], inbox(j), nx).0
      invariant events == PolledEvents(m.devices[..i], inbox, nx)
    {
      var polled := Poll(m.devices[i], inbox(i), nx);
      PolledEventsExtend(m.devices, i, inbox, nx);
      devices := devices + [polled.0];
      events := events + polled.1;
      i := i + 1;
    }
    assert m.devices[..i] == m.devices;
    next := Manager(devices);
  }

  /** Disabled devices contribute nothing to a frame's events. */
  lemma {:induction false} DisabledDevicesContributeNothing(devices: seq<Adapter>, inbox: nat -> seq<Report>, nx: Transform.Numerics)
    requires forall i :: 0 <= i < |devices| ==> !Connected(devices[i])
    ensures PolledEvents(devices, inbox, nx) == []
  {
    if |devices| > 0 {
      var n := |devices| - 1;
      DisabledDevicesContributeNothing(devices[..n], inbox, nx);
      DisabledDeviceIsSilent(devices[n], inbox(n), nx);
    }
  }

  /** An adapter after its destructor ran: its remote, if any, is released. */
  function Release(a: Adapter): (r: Adapter)
    ensures !Connected(r) && KindName(r) == KindName(a)
  {
    match a
    case Button(b) => Button(b.(connected := false))
    case Tracker(t) => Tracker(t.(connected := false))
    case Analog(an) => Analog(an.(connected := false))
  }

  /**
   * The registry's destructor: every owned adapter is released, in order, and
   * the registry is left empty.
   */
  function Destroy(m: Manager): (r: (Manager, seq<Adapter>))
    ensures r.0.devices == []
    ensures |r.1| == |m.devices|
    ensures forall i :: 0 <= i < |m.devices| ==> !Connected(r.1[i]) && KindName(r.1[i]) == KindName(m.devices[i])
  {
    (Manager([]), seq(|m.devices|, i requires 0 <= i < |m.devices| => Release(m.devices[i])))
  }

  /** A released adapter never emits again. */
  lemma ReleasedAreSilent(m: Manager, inbox: nat -> seq<Report>, nx: Transform.Numerics)
    ensures PolledEvents(Destroy(m).1, inbox, nx) == []
  {
    DisabledDevicesContributeNothing(Destroy(m).1, inbox, nx);
  }
}

=== FILE: tracker.dfy ===
/**
 * The tracker adapter. Each configured sensor carries its latest raw sample
 * and a dirty flag. The remote's change callback stores a new sample for a
 * known sensor and marks it dirty; Update emits six axis values for every
 * dirty sensor and cleans it; the motion-controller query looks a sensor up by
 * player index and hand.
 */
module TrackerDevice {
  import opened Values
  import Config
  import opened Transform

  /** The six float-axis keys a sensor named N reports on: NMotionX ... NRotationRoll. */
  datatype TrackerKeys = TrackerKeys(
    motionX: Key,
    motionY: Key,
    motionZ: Key,
    rotationYaw: Key,
    rotationPitch: Key,
    rotationRoll: Key)

  /**
   * One sensor's state: its keys, latest raw position and orientation, the
   * player index and hand it answers motion-controller queries for (-1 and
   * Left when it is no motion controller), and whether a sample arrived since
   * the last Update.
   */
  datatype TrackerInput = TrackerInput(
    keys: TrackerKeys,
    position: Vec3,
    rotation: Quat,
    playerIndex: int,
    hand: Hand,
    dirty: bool)

  /** A sensor id with its state; the adapter keeps them in the order they were added. */
  datatype Sensor = Sensor(id: int, input: TrackerInput)

  /**
   * A tracker adapter. `connected` says whether a remote was opened;
   * `motionController` whether it registered itself as a motion-controller
   * source.
   */
  datatype TrackerAdapter = TrackerAdapter(
    connected: bool,
    sensors: seq<Sensor>,
    calibration: Calibration,
    motionController: bool)

  /** No two sensors share an id, as in the source's id-keyed table. */
  predicate UniqueIds(sensors: seq<Sensor>) {
    forall i, j :: 0 <= i < j < |sensors| ==> sensors[i].id != sensors[j].id
  }

  /**
   * A freshly constructed adapter: a remote only when enabled, no sensors,
   * the identity calibration and no motion-controller registration. Until its
   * section is read it emits nothing and answers no pose query.
   */
  function New(enabled: bool): (r: TrackerAdapter)
    ensures r.connected == enabled && r.sensors == [] && !r.motionController
    ensures r.calibration == DefaultCalibration
    ensures forall nx :: Update(r, nx).1 == []
    ensures forall index, hand, nx :: GetControllerOrientationAndPosition(r, index, hand, nx).None?
  {
    TrackerAdapter(enabled, [], DefaultCalibration, false)
  }

  /** Where sensor `id` sits, if it is configured. */
  function IndexOf(sensors: seq<Sensor>, id: int): (r: Option<nat>)
    ensures r.Some? ==> r.value < |sensors| && sensors[r.value].id == id
    ensures r.None? ==> forall j :: 0 <= j < |sensors| ==> sensors[j].id != id
  {
    FindFirst(sensors, (s: Sensor) => s.id == id)
  }

  /** The state of sensor `id`, if it is configured. */
  function Lookup(sensors: seq<Sensor>, id: int): Option<TrackerInput> {
    match IndexOf(sensors, id)
    case Some(i) => Some(sensors[i].input)
    case None => None
  }

  /** Two sensor lists with the same ids in the same places find every id in the same place. */
  lemma SameIdsSameIndex(s: seq<Sensor>, t: seq<Sensor>, id: int)
    requires |s| == |t| && forall i :: 0 <= i < |s| ==> s[i].id == t[i].id
    ensures IndexOf(s, id) == IndexOf(t, id)
  {
    var p := (x: Sensor) => x.id == id;
    assert forall i :: 0 <= i < |s| ==> p(s[i]) == p(t[i]);
    FindFirstAgrees(s, t, p);
  }

  lemma {:induction false} FindFirstAgrees<T>(s: seq<T>, t: seq<T>, p: T -> bool)
    requires |s| == |t| && forall i :: 0 <= i < |s| ==> p(s[i]) == p(t[i])
    ensures FindFirst(s, p) == FindFirst(t, p)
  {
    if |s| > 0 && !p(s[0]) {
      FindFirstAgrees(s[1..], t[1..], p);
    }
  }

  // ---------------------------------------------------------------------
  // The change callback.

  /**
   * The change callback: for an unknown sensor nothing changes; for a known
   * one the raw position and the raw quaternion become its sample and it is
   * marked dirty. (The source also computes a smoothed orientation, but
   * overwrites it with the raw quaternion straight away.)
   */
  function HandleTracker(a: TrackerAdapter, sensor: int, position: Vec3, quat: Quat): (r: TrackerAdapter)
    ensures Lookup(a.sensors, sensor).None? ==> r == a
    ensures r.connected == a.connected && r.calibration == a.calibration
    ensures r.motionController == a.motionController
    ensures |r.sensors| == |a.sensors|
    ensures forall i :: 0 <= i < |a.sensors| ==> r.sensors[i].id == a.sensors[i].id
    ensures forall i :: 0 <= i < |a.sensors| && IndexOf(a.sensors, sensor) != Some(i) ==> r.sensors[i] == a.sensors[i]
    ensures forall id :: id != sensor ==> Lookup(r.sensors, id) == Lookup(a.sensors, id)
    ensures Lookup(a.sensors, sensor).Some? ==>
      Lookup(r.sensors, sensor) == Some(Lookup(a.sensors, sensor).value.(dirty := true, position := position, rotation := quat))
  {
    match IndexOf(a.sensors, sensor)
    case None => a
    case Some(i) =>
      var prev := a.sensors[i].input;
      var updated := a.sensors[i := Sensor(sensor, prev.(dirty := true, position := position, rotation := quat))];
      assert forall id :: IndexOf(updated, id) == IndexOf(a.sensors, id) by {
        forall id ensures IndexOf(updated, id) == IndexOf(a.sensors, id) {
          SameIdsSameIndex(updated, a.sensors, id);
        }
      }
      a.(sensors := updated)
  }

  /** Feeds a sequence of samples for one sensor to the callback, in order. */
  function HandleAll(a: TrackerAdapter, sensor: int, samples: seq<(Vec3, Quat)>): TrackerAdapter {
    if |samples| == 0 then a
    else
      var last := samples[|samples| - 1];
      HandleTracker(HandleAll(a, sensor, samples[..|samples| - 1]), sensor, last.0, last.1)
  }

  /** A second sample for a sensor simply replaces the first. */
  lemma CallbackOverwrites(a: TrackerAdapter, sensor: int, p1: Vec3, q1: Quat, p2: Vec3, q2: Quat)
    ensures HandleTracker(HandleTracker(a, sensor, p1, q1), sensor, p2, q2) == HandleTracker(a, sensor, p2, q2)
  {
    var b := HandleTracker(a, sensor, p1, q1);
    SameIdsSameIndex(b.sensors, a.sensors, sensor);
    match IndexOf(a.sensors, sensor)
    case None =>
    case Some(i) =>
      assert b.sensors[i].input == a.sensors[i].input.(dirty := true, position := p1, rotation := q1);
  }

  /**
   * Any number of samples for one sensor between two Updates leave the
   * adapter exactly as the last sample alone would: dirty once, with that
   * sample, so the next Update emits a single set of six values.
   */
  lemma {:induction false} CallbacksCollapse(a: TrackerAdapter, sensor: int, samples: seq<(Vec3, Quat)>)
    requires |samples| > 0
    ensures var last := samples[|samples| - 1];
      HandleAll(a, sensor, samples) == HandleTracker(a, sensor, last.0, last.1)
  {
    var n := |samples|;
    if n > 1 {
      var init := samples[..n - 1];
      CallbacksCollapse(a, sensor, init);
      assert init[|init| - 1] == samples[n - 2];
      CallbackOverwrites(a, sensor, samples[n - 2].0, samples[n - 2].1, samples[n - 1].0, samples[n - 1].1);
    } else {
      assert samples[..0] == [];
    }
  }

  // ---------------------------------------------------------------------
  // Update.

  /** The six values one dirty sensor reports: transformed X, Y, Z, then yaw, pitch, roll. */
  function SixOutputs(c: Calibration, nx: Numerics, t: TrackerInput): (r: seq<HostEvent>)
    ensures |r| == 6
    ensures forall k :: 0 <= k < 6 ==> r[k].AnalogInput?
  {
    var pose := TransformCoordinates(c, nx, t.position, t.rotation);
    var rotator := nx.toRotator(pose.rotation);
    [ AnalogInput(t.keys.motionX, pose.position.x),
      AnalogInput(t.keys.motionY, pose.position.y),
      AnalogInput(t.keys.motionZ, pose.position.z),
      AnalogInput(t.keys.rotationYaw, rotator.yaw),
      AnalogInput(t.keys.rotationPitch, rotator.pitch),
      AnalogInput(t.keys.rotationRoll, rotator.roll) ]
  }

  /** The number of dirty sensors. */
  function DirtyCount(sensors: seq<Sensor>): nat {
    if |sensors| == 0 then 0
    else DirtyCount(sensors[..|sensors| - 1]) + (if sensors[|sensors| - 1].input.dirty then 1 else 0)
  }

  /** A sensor with its dirty flag cleared. */
  function Clean(s: Sensor): Sensor {
    s.(input := s.input.(dirty := false))
  }

  /**
   * Walks the sensors in order: each dirty one contributes its six values and
   * is cleaned; the others contribute nothing and stay as they are.
   */
  function EmitSensors(sensors: seq<Sensor>, c: Calibration, nx: Numerics): (r: (seq<Sensor>, seq<HostEvent>))
    ensures |r.0| == |sensors|
    ensures forall i :: 0 <= i < |sensors| ==> r.0[i] == Clean(sensors[i])
    ensures |r.1| == 6 * DirtyCount(sensors)
  {
    if |sensors| == 0 then ([], [])
    else
      var s := sensors[|sensors| - 1];
      var (cleaned, out) := EmitSensors(sensors[..|sensors| - 1], c, nx);
      (cleaned + [Clean(s)], out + (if s.input.dirty then SixOutputs(c, nx, s.input) else []))
  }

  /**
   * The six values of dirty sensor `i` sit right after those of the dirty
   * sensors before it.
   */
  lemma {:induction false} EmitSensorsPlaces(sensors: seq<Sensor>, c: Calibration, nx: Numerics, i: nat)
    requires i < |sensors| && sensors[i].input.dirty
    ensures var out := EmitSensors(sensors, c, nx).1;
      var at := 6 * DirtyCount(sensors[..i]);
      at + 6 <= |out| && out[at..at + 6] == SixOutputs(c, nx, sensors[i].input)
  {
    var n := |sensors|;
    var init := sensors[..n - 1];
    var prev := EmitSensors(init, c, nx).1;
    if i < n - 1 {
      EmitSensorsPlaces(init, c, nx, i);
      assert init[..i] == sensors[..i];
      assert init[i] == sensors[i];
    }
  }

  /**
   * One Update. Without a remote nothing happens. Otherwise every dirty
   * sensor becomes clean and contributes six values, clean sensors
   * contribute none, and samples and ids are kept.
   */
  function Update(a: TrackerAdapter, nx: Numerics): (r: (TrackerAdapter, seq<HostEvent>))
    ensures !a.connected ==> r == (a, [])
    ensures r.0.connected == a.connected && r.0.calibration == a.calibration
    ensures r.0.motionController == a.motionController
    ensures a.connected ==> |r.0.sensors| == |a.sensors|
    ensures a.connected ==> forall i :: 0 <= i < |a.sensors| ==> r.0.sensors[i] == Clean(a.sensors[i])
    ensures a.connected ==> |r.1| == 6 * DirtyCount(a.sensors)
  {
    if !a.connected then (a, [])
    else
      var (cleaned, out) := EmitSensors(a.sensors, a.calibration, nx);
      (a.(sensors := cleaned), out)
  }

  /**
   * What Update emits: the dirty sensors' six values each, in sensor order,
   * computed from the sample and the calibration.
   */
  lemma UpdateEmitsDirty(a: TrackerAdapter, nx: Numerics, i: nat)
    requires a.connected && i < |a.sensors| && a.sensors[i].input.dirty
    ensures var out := Update(a, nx).1;
      var at := 6 * DirtyCount(a.sensors[..i]);
      at + 6 <= |out| && out[at..at + 6] == SixOutputs(a.calibration, nx, a.sensors[i].input)
  {
    EmitSensorsPlaces(a.sensors, a.calibration, nx, i);
  }

  lemma {:induction false} NoneDirtyCountsZero(sensors: seq<Sensor>)
    requires forall i :: 0 <= i < |sensors| ==> !sensors[i].input.dirty
    ensures DirtyCount(sensors) == 0
  {
    if |sensors| > 0 {
      NoneDirtyCountsZero(sensors[..|sensors| - 1]);
    }
  }

  /** A second Update with no sample in between emits nothing. */
  lemma UpdateTwiceIsSilent(a: TrackerAdapter, nx: Numerics)
    ensures Update(Update(a, nx).0, nx).1 == []
  {
    var b := Update(a, nx).0;
    if a.connected {
      NoneDirtyCountsZero(b.sensors);
    }
  }

  lemma {:induction false} OnlyDirtyCountsOne(sensors: seq<Sensor>, k: nat)
    requires k < |sensors| && sensors[k].input.dirty
    requires forall i :: 0 <= i < |sensors| && i != k ==> !sensors[i].input.dirty
    ensures DirtyCount(sensors) == 1 && DirtyCount(sensors[..k]) == 0
  {
    var n := |sensors|;
    assert sensors[..n][..k] == sensors[..k];
    NoneDirtyCountsZero(sensors[..k]);
    if k < n - 1 {
      OnlyDirtyCountsOne(sensors[..n - 1], k);
      assert sensors[..n - 1][..k] == sensors[..k];
    } else {
      NoneDirtyCountsZero(sensors[..n - 1]);
    }
  }

  /**
   * Starting from an adapter with no dirty sensor, one sample for a known
   * sensor makes the next Update emit exactly that sensor's six values for
   * that sample.
   */
  lemma OneSampleOneEmission(a: TrackerAdapter, nx: Numerics, sensor: int, position: Vec3, quat: Quat)
    requires a.connected
    requires forall i :: 0 <= i < |a.sensors| ==> !a.sensors[i].input.dirty
    requires Lookup(a.sensors, sensor).Some?
    ensures Update(HandleTracker(a, sensor, position, quat), nx).1
         == SixOutputs(a.calibration, nx, Lookup(a.sensors, sensor).value.(dirty := true, position := position, rotation := quat))
  {
    var b := HandleTracker(a, sensor, position, quat);
    var k := IndexOf(a.sensors, sensor).value;
    var t := Lookup(a.sensors, sensor).value.(dirty := true, position := position, rotation := quat);
    SameIdsSameIndex(b.sensors, a.sensors, sensor);
    assert b.sensors[k].input == t;
    OnlyDirtyCountsOne(b.sensors, k);
    UpdateEmitsDirty(b, nx, k);
    var out := Update(b, nx).1;
    assert |out| == 6;
    assert out[0..6] == out;
  }

  /**
   * However many samples a known sensor of an otherwise clean adapter
   * receives between two Updates, the next Update emits one set of six
   * values, computed from the last sample.
   */
  lemma ManySamplesOneEmission(a: TrackerAdapter, nx: Numerics, sensor: int, samples: seq<(Vec3, Quat)>)
    requires a.connected && |samples| > 0
    requires forall i :: 0 <= i < |a.sensors| ==> !a.sensors[i].input.dirty
    requires Lookup(a.sensors, sensor).Some?
    ensures var last := samples[|samples| - 1];
      Update(HandleAll(a, sensor, samples), nx).1
        == SixOutputs(a.calibration, nx, Lookup(a.sensors, sensor).value.(dirty := true, position := last.0, rotation := last.1))
  {
    var last := samples[|samples| - 1];
    CallbacksCollapse(a, sensor, samples);
    OneSampleOneEmission(a, nx, sensor, last.0, last.1);
  }

  // ---------------------------------------------------------------------
  // Motion-controller queries.

  /** Sensor state `t` answers queries for (controllerIndex, hand). */
  predicate Answers(t: TrackerInput, controllerIndex: int, hand: Hand) {
    t.playerIndex == controllerIndex && t.hand == hand
  }

  /** The orientation and position the query reports for one sensor. */
  function PoseOutputs(c: Calibration, nx: Numerics, t: TrackerInput): (Rotator, Vec3) {
    var pose := TransformCoordinates(c, nx, t.position, t.rotation);
    (nx.toRotator(pose.rotation), pose.position)
  }

  /**
   * GetControllerOrientationAndPosition: the transformed pose of the first
   * sensor that answers for the player index and hand, or nothing when no
   * sensor does.
   */
  function GetControllerOrientationAndPosition(a: TrackerAdapter, controllerIndex: int, hand: Hand, nx: Numerics)
    : (r: Option<(Rotator, Vec3)>)
    ensures r.Some? <==> exists i :: 0 <= i < |a.sensors| && Answers(a.sensors[i].input, controllerIndex, hand)
    ensures r.Some? ==> exists i :: (
      && 0 <= i < |a.sensors|
      && Answers(a.sensors[i].input, controllerIndex, hand)
      && (forall j :: 0 <= j < i ==> !Answers(a.sensors[j].input, controllerIndex, hand))
      && r.value == PoseOutputs(a.calibration, nx, a.sensors[i].input))
  {
    match FindFirst(a.sensors, (s: Sensor) => Answers(s.input, controllerIndex, hand))
    case None => None
    case Some(i) => Some(PoseOutputs(a.calibration, nx, a.sensors[i].input))
  }

  datatype TrackingStatus = NotTracked | InertialOnly | Tracked

  /** GetControllerTrackingStatus: every controller is reported as tracked. */
  function GetControllerTrackingStatus(a: TrackerAdapter, controllerIndex: int, hand: Hand): (r: TrackingStatus)
    ensures r == Tracked
  {
    Tracked
  }

  // ---------------------------------------------------------------------
  // ParseConfig.

  /**
   * The calibration a section describes: a readable `RotationOffset=` gives
   * that rotation, a readable `PositionOffset=` that offset, and absent or
   * unreadable values the identity defaults (unit factor 1, no flip).
   */
  function ParseCalibration(s: Config.Section): (r: Calibration)
    ensures s.rotationOffset.Given? ==>
      r.rotationOffset == AxisAngleRotation(s.rotationOffset.value.axis, s.rotationOffset.value.angleDegrees)
    ensures s.positionOffset.Given? ==> r.translationOffset == s.positionOffset.value
    ensures s.trackerUnitsToUE4Units.Some? ==> r.unitsToUE4Units == s.trackerUnitsToUE4Units.value
    ensures s.flipZAxis.Some? ==> r.flipZAxis == s.flipZAxis.value
  {
    Calibration(
      match s.positionOffset
      case Given(v) => v
      case _ => Zero,
      match s.rotationOffset
      case Given(r) => AxisAngleRotation(r.axis, r.angleDegrees)
      case _ => NoRotation,
      match s.trackerUnitsToUE4Units
      case Some(u) => u
      case None => 1.0,
      match s.flipZAxis
      case Some(f) => f
      case None => false)
  }

  /** A section that sets none of the calibration keys yields the identity transform. */
  lemma UnsetCalibrationIsIdentity(s: Config.Section, nx: Numerics, position: Vec3, rotation: Quat)
    requires s.rotationOffset.Missing? && s.positionOffset.Missing?
    requires s.trackerUnitsToUE4Units.None? && s.flipZAxis.None?
    requires Lawful(nx) && WorldScale(nx) == 1.0
    ensures TransformCoordinates(ParseCalibration(s), nx, position, rotation) == Pose(position, rotation)
  {
    assert ParseCalibration(s) == DefaultCalibration;
    DefaultCalibrationIsIdentity(nx, position, rotation);
  }

  /**
   * A section with `PositionOffset=(X=1,Y=0,Z=0)`, `TrackerUnitsToUE4Units=2`,
   * `FlipZAxis=false` and no rotation offset maps a sample at the origin to
   * (2,0,0).
   */
  lemma OffsetAndUnitsScenario(s: Config.Section, nx: Numerics, rotation: Quat)
    requires s.positionOffset == Given(Vec3(1.0, 0.0, 0.0)) && s.rotationOffset.Missing?
    requires s.trackerUnitsToUE4Units == Some(2.0) && s.flipZAxis == Some(false)
    requires Lawful(nx) && WorldScale(nx) == 1.0
    ensures TransformCoordinates(ParseCalibration(s), nx, Zero, rotation).position == Vec3(2.0, 0.0, 0.0)
  {
    assert ParseCalibration(s) == Calibration(Vec3(1.0, 0.0, 0.0), NoRotation, 2.0, false);
    OffsetThenScale(nx, rotation);
  }

  /**
   * Each calibration key falls back to its identity default on its own: a
   * missing or malformed rotation offset gives no rotation, a missing or
   * malformed position offset gives (0,0,0), and a missing unit factor or flip
   * gives 1 and no flip, whatever the other keys say.
   */
  lemma MalformedOffsetsFallBack(s: Config.Section)
    ensures !s.rotationOffset.Given? ==> ParseCalibration(s).rotationOffset == NoRotation
    ensures !s.positionOffset.Given? ==> ParseCalibration(s).translationOffset == Zero
    ensures s.trackerUnitsToUE4Units.None? ==> ParseCalibration(s).unitsToUE4Units == 1.0
    ensures s.flipZAxis.None? ==> !ParseCalibration(s).flipZAxis
  {
  }

  /** The keys of a sensor named `name`. */
  function KeysFor(name: string): TrackerKeys {
    TrackerKeys(name + "MotionX", name + "MotionY", name + "MotionZ",
                name + "RotationYaw", name + "RotationPitch", name + "RotationRoll")
  }

  /**
   * The state a usable `Tracker=` entry creates: clean, at the origin with no
   * rotation; player index from `PlayerId=` (-1 when absent); hand Right only
   * for a motion controller (player index at least 0) whose `Hand=` is Right.
   */
  function NewInput(e: Config.Entry): (t: TrackerInput)
    requires Config.WellFormed(e)
    ensures !t.dirty && t.position == Zero && t.rotation == IdentityQuat
    ensures t.keys == KeysFor(e.name.value)
    ensures e.playerId.None? ==> t.playerIndex == -1
    ensures e.playerId.Some? ==> t.playerIndex == e.playerId.value
    ensures t.hand == Right <==> t.playerIndex >= 0 && e.hand == Some("Right")
  {
    var playerIndex := match e.playerId case Some(p) => p case None => -1;
    var hand := if playerIndex >= 0 && e.hand == Some("Right") then Right else Left;
    TrackerInput(KeysFor(e.name.value), Zero, IdentityQuat, playerIndex, hand, false)
  }

  /**
   * The six keys a usable `Tracker=` entry announces, all float axes: the
   * keys its sensor reports on, in the order Update emits them.
   */
  function Announce(e: Config.Entry): (r: seq<KeyDetails>)
    requires Config.WellFormed(e)
    ensures |r| == 6 && forall k :: 0 <= k < 6 ==> r[k].kind == FloatAxis
    ensures var keys := KeysFor(e.name.value);
      && r[0].key == keys.motionX && r[1].key == keys.motionY && r[2].key == keys.motionZ
      && r[3].key == keys.rotationYaw && r[4].key == keys.rotationPitch && r[5].key == keys.rotationRoll
    ensures var n := e.name.value;
      && r[0].displayName == n + " X position" && r[1].displayName == n + " Y position"
      && r[2].displayName == n + " Z position" && r[3].displayName == n + " Yaw"
      && r[4].displayName == n + " Pitch" && r[5].displayName == n + " Roll"
  {
    var n := e.name.value;
    var keys := KeysFor(n);
    [ KeyDetails(keys.motionX, n + " X position", FloatAxis),
      KeyDetails(keys.motionY, n + " Y position", FloatAxis),
      KeyDetails(keys.motionZ, n + " Z position", FloatAxis),
      KeyDetails(keys.rotationYaw, n + " Yaw", FloatAxis),
      KeyDetails(keys.rotationPitch, n + " Pitch", FloatAxis),
      KeyDetails(keys.rotationRoll, n + " Roll", FloatAxis) ]
  }

  /** Adds a sensor, replacing the state of one with the same id in place. */
  function Upsert(sensors: seq<Sensor>, s: Sensor): (r: seq<Sensor>)
    ensures UniqueIds(sensors) ==> UniqueIds(r)
    ensures IndexOf(sensors, s.id).None? ==> r == sensors + [s]
    ensures IndexOf(sensors, s.id).Some? ==> |r| == |sensors| && IndexOf(r, s.id) == IndexOf(sensors, s.id)
    ensures Lookup(r, s.id) == Some(s.input)
    ensures forall id :: id != s.id ==> Lookup(r, id) == Lookup(sensors, id)
  {
    match IndexOf(sensors, s.id)
    case Some(i) =>
      var r := sensors[i := s];
      assert forall id :: IndexOf(r, id) == IndexOf(sensors, id) by {
        forall id ensures IndexOf(r, id) == IndexOf(sensors, id) {
          SameIdsSameIndex(r, sensors, id);
        }
      }
      r
    case None =>
      var r := sensors + [s];
      assert forall id :: id != s.id ==> Lookup(r, id) == Lookup(sensors, id) by {
        forall id | id != s.id ensures Lookup(r, id) == Lookup(sensors, id) {
          FindFirstExtends(sensors, s, (x: Sensor) => x.id == id);
        }
      }
      FindFirstExtends(sensors, s, (x: Sensor) => x.id == s.id);
      r
  }

  lemma {:induction false} FindFirstExtends<T>(s: seq<T>, x: T, p: T -> bool)
    ensures FindFirst(s + [x], p) == (if FindFirst(s, p).Some? then FindFirst(s, p) else if p(x) then Some(|s|) else None)
  {
    if |s| > 0 && !p(s[0]) {
      FindFirstExtends(s[1..], x, p);
      assert (s + [x])[1..] == s[1..] + [x];
    }
  }

  /**
   * Adds a sensor for every usable entry, in order, and announces its six
   * keys; an entry whose id is already present replaces that sensor's state.
   */
  function AddSensors(sensors: seq<Sensor>, entries: seq<Config.Entry>): (r: (seq<Sensor>, seq<KeyDetails>))
    ensures UniqueIds(sensors) ==> UniqueIds(r.0)
    ensures |r.1| == 6 * |Config.Usable(entries)|
  {
    if |entries| == 0 then (sensors, [])
    else
      var e := entries[|entries| - 1];
      var (added, announced) := AddSensors(sensors, entries[..|entries| - 1]);
      if Config.WellFormed(e) then (Upsert(added, Sensor(e.id.value, NewInput(e))), announced + Announce(e))
      else (added, announced)
  }

  /** The announcements of a run of usable entries: each entry's six keys, in entry order. */
  function AnnounceAll(entries: seq<Config.Entry>): seq<KeyDetails>
    requires forall k :: 0 <= k < |entries| ==> Config.WellFormed(entries[k])
  {
    if |entries| == 0 then []
    else AnnounceAll(entries[..|entries| - 1]) + Announce(entries[|entries| - 1])
  }

  /** AddSensors announces the six keys of every usable entry, in entry order, duplicates included. */
  lemma {:induction false} AddSensorsAnnounces(sensors: seq<Sensor>, entries: seq<Config.Entry>)
    ensures AddSensors(sensors, entries).1 == AnnounceAll(Config.Usable(entries))
  {
    if |entries| > 0 {
      var init := entries[..|entries| - 1];
      var last := entries[|entries| - 1];
      AddSensorsAnnounces(sensors, init);
      if Config.WellFormed(last) {
        var u := Config.Usable(init) + [last];
        assert Config.Usable(entries) == u;
        assert u[..|u| - 1] == Config.Usable(init);
        assert AnnounceAll(u) == AnnounceAll(Config.Usable(init)) + Announce(last);
      } else {
        assert Config.Usable(entries) == Config.Usable(init);
        assert AddSensors(sensors, entries).1 == AddSensors(sensors, init).1;
      }
    }
  }

  /**
   * The keys a sensor emits on are exactly the keys its entry announced, in
   * the same order.
   */
  lemma EmittedKeysAreAnnounced(e: Config.Entry, c: Calibration, nx: Numerics, t: TrackerInput)
    requires Config.WellFormed(e) && t.keys == NewInput(e).keys
    ensures forall k :: 0 <= k < 6 ==> SixOutputs(c, nx, t)[k].key == Announce(e)[k].key
  {
    var out := SixOutputs(c, nx, t);
    var ann := Announce(e);
    assert out[0].key == ann[0].key && out[1].key == ann[1].key && out[2].key == ann[2].key;
    assert out[3].key == ann[3].key && out[4].key == ann[4].key && out[5].key == ann[5].key;
  }

  /**
   * After AddSensors, the sensor for each id is the one the last usable entry
   * with that id created; ids no usable entry mentions keep their old state.
   */
  lemma {:induction false} AddSensorsLatestWins(sensors: seq<Sensor>, entries: seq<Config.Entry>)
    ensures var r := AddSensors(sensors, entries).0;
      && (forall i :: 0 <= i < |entries| && Config.Latest(entries, i) ==>
            Lookup(r, entries[i].id.value) == Some(NewInput(entries[i])))
      && (forall id :: id !in Config.WellFormedIds(entries) ==> Lookup(r, id) == Lookup(sensors, id))
  {
    if |entries| > 0 {
      var init := entries[..|entries| - 1];
      AddSensorsLatestWins(sensors, init);
      Config.WellFormedIdsSnoc(entries);
      var r := AddSensors(sensors, entries).0;
      forall i | 0 <= i < |entries| && Config.Latest(entries, i)
        ensures Lookup(r, entries[i].id.value) == Some(NewInput(entries[i]))
      {
        if i < |init| {
          Config.LatestInPrefix(entries, i);
          assert init[i] == entries[i];
        }
      }
    }
  }

  /** Some usable entry makes its sensor a motion controller (`PlayerId=` at least 0). */
  predicate HasMotionControllers(entries: seq<Config.Entry>) {
    exists i :: 0 <= i < |entries| && Config.WellFormed(entries[i])
      && entries[i].playerId.Some? && entries[i].playerId.value >= 0
  }

  /**
   * ParseConfig: reads the calibration, then fails only when the section has
   * no `Tracker=` entries at all. Otherwise it adds a sensor per usable entry
   * (malformed ones are skipped), registers the adapter as a motion-controller
   * source when some sensor has a player index, and succeeds, even when every
   * entry was malformed.
   */
  function ParseConfig(a: TrackerAdapter, s: Config.Section): (r: (TrackerAdapter, seq<KeyDetails>, bool))
    ensures r.2 <==> |s.trackers| > 0
    ensures r.0.connected == a.connected
    ensures r.0.calibration == ParseCalibration(s)
    ensures UniqueIds(a.sensors) ==> UniqueIds(r.0.sensors)
    ensures |s.trackers| == 0 ==> r.0.sensors == a.sensors && r.1 == []
    ensures |s.trackers| > 0 ==> |r.1| == 6 * |Config.Usable(s.trackers)|
    ensures |s.trackers| > 0 ==> (r.0.sensors, r.1) == AddSensors(a.sensors, s.trackers)
    ensures r.0.motionController <==> a.motionController || (|s.trackers| > 0 && HasMotionControllers(s.trackers))
  {
    var c := ParseCalibration(s);
    if |s.trackers| == 0 then (a.(calibration := c), [], false)
    else
      var (sensors, announced) := AddSensors(a.sensors, s.trackers);
      var controllers := HasMotionControllers(s.trackers);
      (a.(calibration := c, sensors := sensors, motionController := a.motionController || controllers), announced, true)
  }

  /**
   * A sensor configured without `PlayerId=` answers the query for player -1
   * and the left hand, like every non-controller sensor.
   */
  lemma NonControllerAnswersMinusOneLeft(enabled: bool, s: Config.Section, i: nat, nx: Numerics)
    requires i < |s.trackers| && Config.Latest(s.trackers, i) && s.trackers[i].playerId.None?
    ensures GetControllerOrientationAndPosition(ParseConfig(New(enabled), s).0, -1, Left, nx).Some?
  {
    var a := ParseConfig(New(enabled), s).0;
    AddSensorsLatestWins([], s.trackers);
    var id := s.trackers[i].id.value;
    var k := IndexOf(a.sensors, id).value;
    assert Answers(a.sensors[k].input, -1, Left);
  }
}

=== FILE: transform.dfy ===
/**
 * The tracker adapter's calibration and the coordinate transform it applies
 * to a raw sample before handing it to the host. The engine's quaternion
 * rotation, quaternion product and quaternion-to-rotator conversion are float
 * numerics this model does not define: they arrive as function values in
 * `Numerics`, and every property below holds whatever they compute.
 */
module Transform {
  import opened Values

  /**
   * The calibration rotation: none, or the normalised rotation of `degrees`
   * about the normalised `axis` read from `RotationOffset=`.
   */
  datatype Rotation = NoRotation | AxisAngleRotation(axis: Vec3, degrees: real)

  /** A tracker adapter's calibration, read once from its section. */
  datatype Calibration = Calibration(
    translationOffset: Vec3,
    rotationOffset: Rotation,
    unitsToUE4Units: real,
    flipZAxis: bool)

  /** What a tracker adapter holds before its section is read. */
  const DefaultCalibration := Calibration(Zero, NoRotation, 1.0, false)

  /**
   * The engine numerics the transform relies on. `worldToMeters` is the
   * WorldToMeters setting of the first game or editor world, when there is
   * one with world settings.
   */
  datatype Numerics = Numerics(
    worldToMeters: Option<real>,
    rotateVector: (Rotation, Vec3) -> Vec3,
    compose: (Rotation, Quat) -> Quat,
    toRotator: Quat -> Rotator)

  /** The numerics treat the absent rotation as the identity, as the engine's do. */
  ghost predicate Lawful(nx: Numerics) {
    && (forall v :: nx.rotateVector(NoRotation, v) == v)
    && (forall q :: nx.compose(NoRotation, q) == q)
  }

  /**
   * The scale from world units to the engine's centimetres: 1 without a world,
   * and 1 again for a world at the engine's default of 100 units per metre.
   */
  function WorldScale(nx: Numerics): (r: real)
    ensures r == 1.0 <==> nx.worldToMeters.None? || nx.worldToMeters == Some(100.0)
  {
    match nx.worldToMeters
    case Some(w) => w * 0.01
    case None => 1.0
  }

  /** The Z-axis flip of a position or offset. */
  function FlipPosition(v: Vec3): (r: Vec3)
    ensures r.x == v.x && r.y == v.y && r.z == -v.z
  {
    Vec3(v.x, v.y, -v.z)
  }

  /** The Z-axis flip of an orientation: X and Y negated, Z and W kept. */
  function FlipRotation(q: Quat): (r: Quat)
    ensures r.x == -q.x && r.y == -q.y && r.z == q.z && r.w == q.w
  {
    Quat(-q.x, -q.y, q.z, q.w)
  }

  /** A position and orientation in the engine's space. */
  datatype Pose = Pose(position: Vec3, rotation: Quat)

  /**
   * Maps a raw sample into the engine's space: optionally flip Z, add the
   * translation offset, scale by the unit factor and the world scale, then
   * apply the rotation offset to both position and orientation.
   */
  function TransformCoordinates(c: Calibration, nx: Numerics, position: Vec3, rotation: Quat): (r: Pose)
    ensures Lawful(nx) && c.rotationOffset == NoRotation ==>
      r.rotation == (if c.flipZAxis then FlipRotation(rotation) else rotation)
    ensures Lawful(nx) && c.rotationOffset == NoRotation && !c.flipZAxis ==>
      r.position == position.Plus(c.translationOffset).Scale(c.unitsToUE4Units * WorldScale(nx))
  {
    var p := if c.flipZAxis then FlipPosition(position) else position;
    var offset := if c.flipZAxis then FlipPosition(c.translationOffset) else c.translationOffset;
    var q := if c.flipZAxis then FlipRotation(rotation) else rotation;
    Pose(
      nx.rotateVector(c.rotationOffset, p.Plus(offset).Scale(c.unitsToUE4Units).Scale(WorldScale(nx))),
      nx.compose(c.rotationOffset, q))
  }

  /** Flipping twice restores a position and an orientation. */
  lemma FlipIsInvolution(v: Vec3, q: Quat)
    ensures FlipPosition(FlipPosition(v)) == v
    ensures FlipRotation(FlipRotation(q)) == q
  {
  }

  /**
   * A flipping calibration behaves exactly like the non-flipping one applied
   * to the flipped sample and the flipped translation offset.
   */
  lemma FlipReflectsSampleAndOffset(c: Calibration, nx: Numerics, position: Vec3, rotation: Quat)
    requires c.flipZAxis
    ensures TransformCoordinates(c, nx, position, rotation)
         == TransformCoordinates(
              c.(flipZAxis := false, translationOffset := FlipPosition(c.translationOffset)),
              nx, FlipPosition(position), FlipRotation(rotation))
  {
  }

  /**
   * With the default calibration, a unit world scale (no world, or the
   * engine's default one) and numerics that leave the absent rotation alone,
   * the transform hands the raw sample through.
   */
  lemma DefaultCalibrationIsIdentity(nx: Numerics, position: Vec3, rotation: Quat)
    requires Lawful(nx) && WorldScale(nx) == 1.0
    ensures TransformCoordinates(DefaultCalibration, nx, position, rotation) == Pose(position, rotation)
  {
    assert position.Plus(Zero).Scale(1.0).Scale(1.0) == position;
  }

  /**
   * An offset of (1,0,0) and a unit factor of 2 map the raw origin to
   * (2,0,0) when there is no rotation offset and the world scale is 1.
   */
  lemma OffsetThenScale(nx: Numerics, rotation: Quat)
    requires Lawful(nx) && WorldScale(nx) == 1.0
    ensures TransformCoordinates(Calibration(Vec3(1.0, 0.0, 0.0), NoRotation, 2.0, false), nx, Zero, rotation).position
         == Vec3(2.0, 0.0, 0.0)
  {
    var c := Calibration(Vec3(1.0, 0.0, 0.0), NoRotation, 2.0, false);
    var scaled := Zero.Plus(c.translationOffset).Scale(c.unitsToUE4Units).Scale(WorldScale(nx));
    assert scaled == Vec3(2.0, 0.0, 0.0);
    assert TransformCoordinates(c, nx, Zero, rotation).position == nx.rotateVector(NoRotation, scaled);
  }
}

=== FILE: values.dfy ===
/**
 * Values shared by every adapter of the VRPN input plugin: optional and
 * three-state configuration fields, the engine's vector, quaternion and
 * rotator types over reals, key names, the key registrations announced to the
 * host and the input events handed to it.
 */
module Values {

  /** A value that may be absent. */
  datatype Option<+T> = None | Some(value: T)

  /** A configuration field that is absent, present but unreadable, or present and read. */
  datatype Field<+T> = Missing | Malformed | Given(value: T)

  /** The engine's FVector, with exact real components. */
  datatype Vec3 = Vec3(x: real, y: real, z: real) {
    function Plus(other: Vec3): Vec3 {
      Vec3(x + other.x, y + other.y, z + other.z)
    }

    function Scale(k: real): Vec3 {
      Vec3(x * k, y * k, z * k)
    }
  }

  const Zero := Vec3(0.0, 0.0, 0.0)

  /** The engine's FQuat, components in the engine's order (X, Y, Z imaginary, W real). */
  datatype Quat = Quat(x: real, y: real, z: real, w: real)

  /** The quaternion a forced-initialised FQuat holds: no rotation. */
  const IdentityQuat := Quat(0.0, 0.0, 0.0, 1.0)

  /** The engine's FRotator: Euler angles in degrees. */
  datatype Rotator = Rotator(pitch: real, yaw: real, roll: real)

  /** An FKey is identified by its name. */
  type Key = string

  /** The engine's EControllerHand, as far as the plugin distinguishes it. */
  datatype Hand = Left | Right

  /** How a key is announced to the host: a digital gamepad key or a float axis. */
  datatype KeyKind = GamepadKey | FloatAxis

  /** One call of EKeys::AddKey: a key, its display name and its kind. */
  datatype KeyDetails = KeyDetails(key: Key, displayName: string, kind: KeyKind)

  /** One event handed to the host application's input dispatch. */
  datatype HostEvent =
    | KeyDown(key: Key)
    | KeyUp(key: Key)
    | AnalogInput(key: Key, value: real)

  /** Index of the first element of `s` that satisfies `p`, if any. */
  function FindFirst<T>(s: seq<T>, p: T -> bool): (r: Option<nat>)
    ensures r.Some? ==> r.value < |s| && p(s[r.value])
    ensures r.Some? ==> forall j :: 0 <= j < r.value ==> !p(s[j])
    ensures r.None? ==> forall j :: 0 <= j < |s| ==> !p(s[j])
  {
    if |s| == 0 then None
    else if p(s[0]) then Some(0)
    else
      match FindFirst(s[1..], p)
      case None => None
      case Some(k) => Some(k + 1)
  }
}
